=== FILE: README.md ===
# test-toolbox spy and step bookkeeping, modelled in Dafny

This project models the core of the Python test-helper library `test-toolbox` as pure Dafny functions. The model has two parts.

**The spy** (`testtoolbox/spy.py`) wraps a callable and records every call that returned normally. A test then asks how many recorded calls match a *pattern* of predicates, and a *quantifier* (`times`, `once`, `never`, `at_least_once`, `always`, ...) judges that count.
- There are two matchers: *exact* and *partial*.
- Both align the recorded call and the pattern against the callable's signature descriptor. Alignment produces three parts:
  - a map from declared parameter names to values, seeded with defaults on the call side;
  - the surplus positional arguments;
  - the surplus keyword arguments.
- The two alignments are then compared:
  - exact match demands equality of what was supplied;
  - partial match demands only that the call supplies what the pattern mentions.

**The step bookkeeping** of the BDD printer (`testtoolbox.py`):
- the attribute gate that turns `given`/`when`/`then`/`also`/`and_`/`but` into steps;
- the enter/exit handlers, which allocate step indices, track the nesting level, record entry lines and exit verdicts, and reset when the outermost step closes;
- the ANSI formatter.

The model is pure. A spy and a step printer are immutable values; each operation that changes one returns the new value. The wrapped callable is a parameter returning `Returned(value)` or `Raised(error)`. The introspected signature is an input record (`ArgSpec`). Values are a type parameter, and predicates are total functions `V -> bool`.

Modules:
- `Wrappers`: `Option`, `Result`.
- `Collections`: sequence and map helpers. These include `UpdateWith`, which is `dict.update` over pairs, and `Count`, which is the length of `filter(None, map(p, s))`.
- `ArgSpecs`: the descriptor and the default seed.
- `Alignment`: the shared alignment and its parameter-by-parameter reference reading.
- `Predicates`: `anything`, `equal_to`, `any_of`.
- `Matching`: both matchers and their equivalence with the reference reading.
- `MatchLaws`: laws of the matchers, and the default-seed finding.
- `Quantifiers`: the quantifiers.
- `Spies`: the spy, its history, and the check/assert API.
- `Text`: replace, capitalize, strip and repeat.
- `Bdd`: the step state machine.
- `Output`: the formatter and styles.

Three behaviours of the code worth noting:
- **Default seeding.** Only the call side is seeded with defaults; the pattern side starts empty.
- **Failure diagnostics.** The history is attached to a failing assertion only when the spy is `verbose`.
- **Quantifier arguments.** A quantifier receives the list of matches and the history. Under Python 2 the list of matches is a list of `True`s, so it is modelled as their count.

## Model

| member | source | states |
|---|---|---|
| ArgSpecs.OpaqueSpec | testtoolbox/spy.py:13 | The degenerate descriptor has no named parameters and no defaults, and accepts `*args` and `**kwargs`. |
| ArgSpecs.Descriptor | testtoolbox/spy.py:12-21 | "Not inspectable" takes precedence over "method". A method's descriptor drops the receiver's name but keeps the defaults and the variadic slots. A plain function keeps its signature. |
| ArgSpecs.DefaultSeed | testtoolbox/spy.py:96-99 | The corrected seed. Its keys are exactly the last `len(defaults)` parameter names. With distinct names, each maps to its own default, in order. |
| ArgSpecs.SourceSeed | testtoolbox/spy.py:97 | The seed as written only ever seeds declared parameter names. |
| ArgSpecs.SourceSeedAgrees | testtoolbox/spy.py:96-99 | The seed as written equals the corrected seed whenever a signature has at most two parameters more than it has defaults. |
| ArgSpecs.SourceSeedDiffers | testtoolbox/spy.py:96-99 | With distinct names, defaults, and more than `len(defaults)+2` parameters, the seed as written never binds the last parameter, which the corrected seed binds, so the two seeds differ. |
| ArgSpecs.SourceSeedCounterexample | testtoolbox/spy.py:97 | For `def f(a, b, c, d=4)`, the seed as written is `{c: 4}`; the intended seed is `{d: 4}`. |
| Alignment.Outside | testtoolbox/spy.py:108-109 | The surplus keywords are exactly the keyword arguments that name no declared parameter, with their values. |
| Alignment.Align | testtoolbox/spy.py:100-109 | The surplus positionals are the arguments beyond the declared names, in order. When the seed holds only declared names, so does the named map, and the surplus keywords are exactly the undeclared keyword arguments. |
| Alignment.AlignIsBinding | testtoolbox/spy.py:100-103 | With distinct names, each parameter is bound by a keyword if one names it, else positionally if an argument reaches it, else by its default. A parameter with none of these is absent from the named map. |
| Alignment.AlignOpaque | testtoolbox/spy.py:100-109 | With no declared parameters, nothing is named and every positional and keyword argument is surplus. |
| Predicates.EqualTo | testtoolbox/spy.py:196-199 | Accepts a value iff it equals the element. |
| Predicates.AnyOf | testtoolbox/spy.py:190-193 | Accepts a value iff it occurs among the elements. |
| Predicates.AnyOfSingleton | testtoolbox/spy.py:190-199 | `any_of` over one element accepts exactly what `equal_to` that element accepts. |
| Predicates.AnyOfConcat | testtoolbox/spy.py:190-193 | `any_of` over joined sequences accepts a value iff one of the parts accepts it. |
| Matching.AllPairsAccept | testtoolbox/spy.py:117 | `all` over the zipped pairs holds iff every predicate accepts its value, up to the shorter length. |
| Matching.ExactMatch | testtoolbox/spy.py:95-121 | An exact match implies four things. Both sides have the same number of surplus positionals. Every surplus positional predicate accepts. The sets of undeclared keyword names are equal. Every undeclared keyword predicate accepts. |
| Matching.PartialMatch | testtoolbox/spy.py:124-150 | A partial match implies three things. The call has at least the pattern's surplus positionals, and the pattern's predicates accept them. The call supplies every undeclared keyword the pattern mentions. Those predicates accept. |
| Matching.ExactImpliesPartial | testtoolbox/spy.py:111-148 | Exact match implies partial match for the same descriptor, pattern and call. |
| Matching.ExactMatchIsReference | testtoolbox/spy.py:95-121 | With distinct parameter names, exact match holds iff all of the following hold. Each declared parameter is bound on both sides or on neither, and its predicate accepts. The surplus positional counts agree and their predicates accept pairwise. The undeclared keyword names are equal and their predicates accept. |
| Matching.PartialMatchIsReference | testtoolbox/spy.py:124-150 | With distinct names, partial match holds iff all of the following hold. Every parameter the pattern binds is bound by the call and accepted. The call has at least the pattern's surplus positionals, and they are accepted pairwise up to the pattern's count. Every undeclared keyword of the pattern is supplied and accepted. |
| MatchLaws.OpaqueAlignment | testtoolbox/spy.py:100-109 | Under the opaque descriptor, both alignments are "nothing named, everything surplus". |
| MatchLaws.OpaqueExactMatch | testtoolbox/spy.py:111-119 | Against an opaque callable, exact match holds iff three things hold: equal positional counts, equal keyword names, and every predicate accepting. |
| MatchLaws.OpaquePartialMatch | testtoolbox/spy.py:140-148 | Against an opaque callable, partial match holds iff the call has at least the pattern's positionals and keyword names, and the pattern's predicates accept. |
| MatchLaws.PartialMatchesItself | testtoolbox/spy.py:124-150 | A call always partially matches the pattern of `equal_to` predicates built from its own arguments. |
| MatchLaws.ExactMatchesItselfIff | testtoolbox/spy.py:95-121 | A call exactly matches its own `equal_to` pattern iff it supplies every defaulted parameter, positionally or by keyword. The reason: the call side is seeded with defaults and the pattern side is not. |
| MatchLaws.PartialMonotone | testtoolbox/spy.py:140-148 | Take a pattern that binds at least what a weaker one binds, each with a stricter predicate. It partially matches no call that the weaker pattern misses. |
| MatchLaws.ExactMatchAsWritten | testtoolbox/spy.py:95-121 | Exact match with the seed as written. A match still requires equal surplus positional counts and equal undeclared keyword names; only the named parameters see the seed. |
| MatchLaws.PartialMatchAsWritten | testtoolbox/spy.py:124-150 | Partial match with the seed as written. A match still requires the call to have at least the pattern's surplus positionals and every undeclared keyword the pattern names. |
| MatchLaws.AsWrittenAgrees | testtoolbox/spy.py:96-101 | With the seed as written, both matchers agree with the corrected ones whenever a signature has at most two parameters more than defaults. |
| MatchLaws.AsWrittenCounterexample | testtoolbox/spy.py:95-150 | Take `def f(a, b, c, d=4)` called as `f(1, 2, 3)`. As written, three `anything`s match exactly, which the corrected matcher rejects. As written, a pattern `d=equal_to(4)` misses partially, which the corrected matcher accepts. |
| Quantifiers.Once | testtoolbox/spy.py:158 | `once` holds iff exactly one record matched. |
| Quantifiers.Never | testtoolbox/spy.py:159 | `never` holds iff no record matched. |
| Quantifiers.AtLeastOnce | testtoolbox/spy.py:167 | `at_least_once` holds iff some record matched. |
| Quantifiers.Always | testtoolbox/spy.py:170-171 | `always` holds iff the number of matches equals the length of the history, so 0 of 0 holds. |
| Spies.NewSpy | testtoolbox/spy.py:10-25 | A new spy has an empty history and keeps the method and verbose flags. Its descriptor is `ArgSpecs.Descriptor` of the signature: opaque when not inspectable; otherwise it keeps the signature's defaults, drops the receiver's name for a method, and keeps the whole signature for a plain function. |
| Spies.Recorded | testtoolbox/spy.py:29-32 | A method spy records the arguments without the receiver. A function spy records them unchanged. |
| Spies.Call | testtoolbox/spy.py:27-33 | The target's outcome is passed through unchanged. A returning call appends exactly its record and keeps the old history as a prefix. A raising call leaves the spy unchanged. |
| Spies.NumInvocations | testtoolbox/spy.py:38-40 | The number of invocations is the length of the history. |
| Spies.NumInvocationsAfterCall | testtoolbox/spy.py:27-40 | A call adds one to `num_invocations` iff the target returned. |
| Spies.Clear | testtoolbox/spy.py:90-92 | Clearing empties the history, keeps the settings, and reports `True`. |
| Collections.CountIsCardinality | testtoolbox/spy.py:46 | The length of `filter(None, map(p, s))` is the number of positions of `s` whose element satisfies `p`. |
| Spies.Matches | testtoolbox/spy.py:44-52 | With distinct parameter names, the exact-mode verdict on one record is the reference exact reading, and the partial-mode verdict is the reference partial reading. An exact-mode match is also a partial match. |
| Spies.MatchCount | testtoolbox/spy.py:45-47 | The number of matches handed to the quantifier is the number of positions in the history whose recorded call matches the pattern. |
| Spies.CheckQuantified | testtoolbox/spy.py:42-56 | A check hands its quantifier the number of history positions whose record matches, together with the whole history. |
| Spies.CheckTimes | testtoolbox/spy.py:153-156 | A check with `times(n)` holds iff exactly `n` recorded calls match. |
| Spies.CheckAtLeastTimes | testtoolbox/spy.py:162-165 | A check with `at_least_times(n)` holds iff `n` or more recorded calls match. |
| Spies.NeverIsNotAny | testtoolbox/spy.py:159-167 | A check with `never` holds iff `assert_any_*` with the same pattern fails. |
| Spies.OneIsAnyButNotTwo | testtoolbox/spy.py:153-167 | `assert_one_*` passes iff `assert_any_*` passes and `at_least_times(2)` does not hold. |
| Spies.AlwaysAndNever | testtoolbox/spy.py:159-171 | `always` and `never` both hold for a pattern iff nothing has been recorded. |
| Spies.AssertQuantified | testtoolbox/spy.py:58-76 | An assertion passes iff its check holds. A failure carries the whole history iff the spy is verbose. |
| Spies.AssertAny | testtoolbox/spy.py:78-85 | `assert_any_*` passes iff some recorded call matches. |
| Spies.AssertOne | testtoolbox/spy.py:81-88 | `assert_one_*` passes iff exactly one recorded call matches. |
| Spies.CheckNever | testtoolbox/spy.py:42-56 | A check with `never` holds iff no recorded call matches. |
| Spies.CheckAlways | testtoolbox/spy.py:42-56 | A check with `always` holds iff every recorded call matches. |
| Spies.ExactCountBelowPartial | testtoolbox/spy.py:42-56 | Fewer or equally many records match exactly than match partially. |
| Spies.AssertAnyExactImpliesPartial | testtoolbox/spy.py:78-85 | `assert_any_exact_match` passing implies `assert_any_partial_match` passing for the same pattern. |
| Spies.MatchCountAfterCall | testtoolbox/spy.py:27-33 | A call raises the count of matching records by one iff the target returned and the new record matches. |
| Spies.ClearedMatchesNothing | testtoolbox/spy.py:90-92 | After clearing, `never` holds and `assert_any_*` fails for every pattern. |
| Spies.CallAll | testtoolbox/spy.py:27-33 | A sequence of calls keeps the spy's settings. |
| Spies.CallAllHistory | testtoolbox/spy.py:27-33 | After a sequence of calls, the old history is a prefix of the new one. It grew by exactly the number of calls whose target returned. |
| Spies.WildcardMatchesSingleArgument | testtoolbox/spy.py:186-187 | For a one-parameter signature `def f(name)` with no default, and any name and value type, a call passing that one argument exactly matches a single `anything`. |
| Spies.KeywordPatternMatchesPositional | testtoolbox/spy.py:100-103 | For a one-parameter signature `def f(name)` with no default, the pattern `name=equal_to(v)` exactly matches the positional call `f(v)`, because both sides align by name. With more parameters the call's other names would also have to appear in the pattern. |
| Spies.EqualToRejectsOther | testtoolbox/spy.py:196-199 | For a one-parameter signature `def f(name)` with no default, a positional `equal_to(w)` pattern does not exactly match a call that passed a different value. |
| Spies.SingleRecordCount | testtoolbox/spy.py:45-47 | With one recorded call, the match count is 1 if that call matches and 0 otherwise. |
| Spies.HelloAfterCall | testtoolbox/spy.py:232-235 | After `hello(1)` returns, the spy on `def hello(world)` holds exactly the record `(1,)`, under the unchanged signature. |
| Spies.FunctionSpyScenario | testtoolbox/spy.py:232-238 | After `hello(1)`, each of the three exact checks holds: `times(1)` with `anything`, `times(1)` with `world=equal_to(1)`, and `never` with `equal_to(2)`. |
| Spies.MethodSpyMatchesOnce | testtoolbox/spy.py:225-241 | Take a method spy on `wat(self, wat)` called as `t.wat(1)`. It records `(1,)` without the receiver, and `assert_one_exact_match(anything)` passes. |
| Text.Replace | testtoolbox.py:217 | `replace` keeps the length and substitutes exactly the matching characters. |
| Text.Capitalize | testtoolbox.py:217 | `capitalize` upper-cases the first character and lower-cases the rest. |
| Text.CapitalizeIdempotent | testtoolbox.py:217 | Capitalizing twice is capitalizing once. |
| Text.LeadingSpaces | testtoolbox.py:217 | Counts the whitespace characters a string starts with: all are whitespace and the next one is not. |
| Text.TrailingSpaces | testtoolbox.py:217 | Counts the whitespace characters a string ends with: all are whitespace and the one before is not. |
| Text.Strip | testtoolbox.py:217 | `strip` returns a slice of the input with only whitespace cut away. The slice neither starts nor ends with whitespace. |
| Text.StripTrimmed | testtoolbox.py:217 | A string without surrounding whitespace is unchanged by `strip`. |
| Text.StripIdempotent | testtoolbox.py:217 | Stripping twice is stripping once. |
| Text.Repeat | testtoolbox.py:216 | `s * n` has length `n·|s|` (0 for `n ≤ 0`), starts with `s` when `n > 0`, and uses only characters of `s`. |
| Bdd.StepName | testtoolbox.py:166 | Every step kind is named by an entry of `bdd_names`. |
| Bdd.LookupStep | testtoolbox.py:207-211 | A name produces a step iff it is in `bdd_names`, and the step's name is that name. Any other name fails with "No such attribute " followed by the name. |
| Bdd.LookupStepName | testtoolbox.py:207-211 | Each step kind is reached through its own name. |
| Bdd.Clean | testtoolbox.py:217 | The cleaned step name is no longer than the raw one and has no surrounding whitespace. |
| Bdd.CleanWord | testtoolbox.py:217 | A lower-case word is printed with its first letter upper-cased and the rest unchanged. |
| Bdd.CleanAnd | testtoolbox.py:217 | `and_` cleans to `And`: the underscore becomes a space that `strip` removes. |
| Bdd.CleanStepNames | testtoolbox.py:217 | The six step names print as Given, When, Then, Also, And, But. |
| Bdd.NewBdd | testtoolbox.py:197-205 | A new printer stores its settings, is at level 0 with index 0, and has no entries or exits. |
| Bdd.DefaultBdd | testtoolbox.py:197-205 | The default printer has the bullet `->`, width 120 and a two-space indent, and starts at level 0 in the well-formed empty state. |
| Bdd.EntryLine | testtoolbox.py:216-218 | At depth `level >= 0` the line has length `level * len(indent) + len(bullet) + len(Clean(levelName)) + len(text) + 2`. It starts with an indentation prefix of `level * len(indent)` indentation characters. Then come the bullet, a space, the cleaned step name `Clean(levelName)` and a space, at exactly that position. It ends with the step text. |
| Bdd.Enter | testtoolbox.py:213-220 | Entering returns the old index and advances index and level by one. It stores the entry line under the returned index, with other entries and all exits unchanged. |
| Bdd.Classify | testtoolbox.py:224-235 | No exception is PASS. A type in the ignore list is IGNORE even if it is also in the warn list. A type only in the warn list is WARNING. Any other type is FAIL. |
| Bdd.Record | testtoolbox.py:224-235 | The exit record carries the verdict, plus the exception's text exactly when there was an exception. |
| Bdd.Exit | testtoolbox.py:222-239 | Exiting lowers the level by one. The result is false iff the step failed. If the new level is 0, both maps are emptied and the index resets to 0. Otherwise the step's record is stored under its index and nothing else changes. |
| Bdd.NewBddWf | testtoolbox.py:197-205 | A new printer satisfies the nesting invariant. |
| Bdd.EnterWf | testtoolbox.py:213-220 | Entering keeps the nesting invariant. Under it, entries are exactly the indices handed out, exits belong to entries, and level 0 means nothing is recorded. |
| Bdd.ExitWf | testtoolbox.py:222-239 | Exiting an open step by an index it was given keeps the nesting invariant. |
| Bdd.OutermostRoundTrip | testtoolbox.py:213-239 | Entering and leaving an outermost step restores the starting state. The result tells whether the exception is swallowed. |
| Bdd.NestedStepRecorded | testtoolbox.py:213-239 | Take a step nested in an open step and leave it. The inner step gets index 1, both entries are kept, and only the inner exit is recorded, at level 1. |
| Output.Format | testtoolbox.py:33-34 | The formatted string is the code, then the text, then the terminator, each at its own position. |
| Output.FormatReset | testtoolbox.py:33 | Without a terminator the formatter ends with the reset code. |
| Output.Unwrap | testtoolbox.py:33-34 | Whatever `Unwrap` returns, formatted again, gives back its input. |
| Output.UnwrapFormat | testtoolbox.py:33-34 | Unwrapping a formatted text gives back the text. |
| Output.FormatInjective | testtoolbox.py:33-34 | With the same codes, formatted strings are equal iff the texts are equal. |
| Output.OffCode | testtoolbox.py:37-48 | Colours close with the normal-colour code. Bold and half-bright close with the normal-brightness code. Underline closes with the underline-off code, and blinking with the blink-off code. |
| Output.Styled | testtoolbox.py:37-48 | A styled text unwraps, with its style's codes, back to the text. |
| Output.StylesDistinct | testtoolbox.py:37-48 | Two different styles never render a text alike. This uses the corrected half-bright code. |
| Output.HalfBrightAsWrittenIsBold | testtoolbox.py:25 | With the half-bright code as written, `half_bright(text)` equals `bold(text)` for every text. |

## Left out

- Signature introspection (`inspect.getargspec`, `update_wrapper`): the introspected signature is an input (`ArgSpec`). The names of the `*args` and `**kwargs` slots are carried along but are not used by the matchers, as in the source.
- `Spy.__get__` and method binding through `MethodType`/`FunctionType`: Python object-model plumbing. A method spy is modelled by its recorded arguments, which exclude the receiver.
- `apply_builtin_function_spy`, `apply_function_spy` and `apply_method_spy`: each is `NewSpy` with one flag set and `verbose` left at its default `True`, so they are not modelled separately.
- Spies.CheckQuantified, Spies.AssertQuantified, Spies.AssertAny, Spies.AssertOne: they accept any `Pattern`. In the source, a pattern keyword named `self`, or `times_praedicate` for the quantified checks and assertions, collides with the method's own parameter and raises `TypeError` ("got multiple values for keyword argument") before any matching. That error path is not modelled.
- `identical_to` and `instance_of`: they need object identity and runtime types.
- `anything` is `Predicates.Anything`, which is true by definition. It has no contract of its own, so it has no row above.
- The text of assertion messages, including the exact-match verbose message that says "partial", and the `repr` of recorded calls. A failed assertion is modelled as `AssertionError`, with the history attached when the spy is verbose.
- `foo` and the remaining `__main__` demonstration: `Spies.FunctionSpyScenario` and `Spies.MethodSpyMatchesOnce` restate its function-spy and method-spy steps. Its built-in `len` spy step is covered by the general laws for opaque signatures (`MatchLaws.OpaqueExactMatch`) and is not restated.
- User-written quantifiers see the match count rather than a list of `True`s; the two carry the same information.
- Matching.ExactMatch, Matching.PartialMatch: their own contracts state only the consequences of a match. The full if-and-only-if characterization is `ExactMatchIsReference`/`PartialMatchIsReference`. These require distinct parameter names, which Python's syntax guarantees.
- Matching.ExactMatch, Matching.PartialMatch, Spies.Matches, Output.Styled: they use the corrected default seed and the corrected half-bright code, not the ones at `testtoolbox/spy.py:97`, `testtoolbox/spy.py:126` and `testtoolbox.py:25`. So the spy's whole check/assert API uses the corrected seed. The seed as written equals the corrected one exactly when a signature has no defaults or at most `len(defaults)+2` parameters (`ArgSpecs.SourceSeedAgrees`, `ArgSpecs.SourceSeedDiffers`). The matchers agree with the source whenever the seeds agree (`MatchLaws.AsWrittenAgrees`), and can differ otherwise (`MatchLaws.AsWrittenCounterexample`). `half_bright` differs only in its opening code. The matchers as written are `MatchLaws.ExactMatchAsWritten` and `MatchLaws.PartialMatchAsWritten`.
- Aliasing of recorded arguments: the source appends the live `args` tuple and `kwargs` dict, so mutating an argument after the call changes later verdicts. The model records immutable values.
- `any_of` over arbitrary containers: Python's `in` is a substring test on strings and a key test on dicts. `Predicates.AnyOf` takes a sequence of elements only.
- Raising predicates and quantifiers: in the source, an exception in a predicate or quantifier propagates out of the check or assertion. The model's predicates and quantifiers are total functions.
- Text.Repeat: states the length, the first copy and the alphabet of `s * n`, not the full periodic content.
- Text.Capitalize: ASCII letters only. Python's `str.capitalize` also maps non-ASCII letters.
- Bdd.EntryLine: states the exact length and the position of the bullet, the cleaned step name and the text, and that the indentation prefix uses only indentation characters. It does not state that the prefix repeats the indentation string periodically (see `Text.Repeat`).
- The `_Step` object: its `__call__` that stores the text, warn and ignore lists; `cleanup_func`; and `__getattr__` delegation to the parent. Steps are modelled by the enter/exit handlers with those values as parameters.
- `BDD.__getattr__` is only reached for names that are not ordinary attributes. The model gates names directly.
- `output_functions` and the printing of steps (`_print_steps`, `_print_formatter`, `wrap_text_cleanly`): console output. `max_width` is only stored.
- `str(text)` in the formatter: texts are strings in the model.
- `repr(exc_val)`: supplied with the exception as text.
- The test and class decorators, `ignore_test`, `should`/`must`, `modify_buffer_object` and `await_condition`: these are output wrappers, ctypes memory writes, and wall-clock polling.

## Findings

| source | as written | input that shows it | evidently intended | confidence | as-written member | corrected member |
|---|---|---|---|---|---|---|
| testtoolbox/spy.py:97 | The default seed pairs the reversed defaults with the parameter names read backwards from index `len(defaults)+1`. The same code is at line 126. | `def f(a, b, c, d=4)` called as `f(1, 2, 3)`: the default 4 is paired with `c` and `d` stays unbound. So `(anything, anything, anything)` matches exactly, and `d=equal_to(4)` fails to match partially. | The last `len(defaults)` parameters are seeded with their own defaults. The slice should start from the last parameter. | high; not executed | MatchLaws.AsWrittenCounterexample | ArgSpecs.DefaultSeed |
| testtoolbox.py:25 | `HALF_BRIGHT` is the same escape code as `BOLD` (SGR 1). | `half_bright("x") == bold("x")` | SGR 2 ("faint"), so that half-bright differs from bold | medium; not executed | Output.HalfBrightAsWrittenIsBold | Output.StylesDistinct |

=== FILE: alignment.dfy ===
/**
 Argument alignment, shared by both matchers: the arguments of a call (or the
 predicates of a pattern) are split into the values bound to declared
 parameter names, the surplus positional arguments and the keyword arguments
 that name no declared parameter.
 */
module Alignment {
  import opened Collections

  datatype Aligned<T> = Aligned(
    named: map<string, T>,
    extraArgs: seq<T>,
    extraKwargs: map<string, T>)

  /** The keyword arguments a `**kwargs` slot would catch: those naming no declared parameter. */
  function Outside<T>(kwargs: map<string, T>, params: seq<string>): (m: map<string, T>)
    ensures forall k :: k in m <==> k in kwargs && k !in params
    ensures forall k :: k in m ==> m[k] == kwargs[k]
  {
    map k | k in kwargs && k !in params :: kwargs[k]
  }

  /**
   Seeds the named map, binds positional arguments left to right over the
   leading parameter names, then lets keyword arguments naming a declared
   parameter overwrite; the surplus positionals are those beyond the declared
   names and the surplus keywords those the named map does not hold.
   */
  function Align<T>(params: seq<string>, seed: map<string, T>, args: seq<T>, kwargs: map<string, T>): (a: Aligned<T>)
    ensures KeysIn(seed, params) ==> KeysIn(a.named, params)
    ensures |a.extraArgs| == if |params| <= |args| then |args| - |params| else 0
    ensures forall i :: 0 <= i < |a.extraArgs| ==> a.extraArgs[i] == args[|params| + i]
    ensures KeysIn(seed, params) ==> a.extraKwargs == Outside(kwargs, params)
  {
    var ps := Zip(Take(params, |args|), args);
    assert forall k | k in KeysOf(ps) :: k in params by {
      forall k | k in KeysOf(ps) ensures k in params {
        var i :| 0 <= i < |ps| && ps[i].0 == k;
        assert Take(params, |args|)[i] == params[i];
      }
    }
    var named := UpdateWith(seed, ps) + map k | k in kwargs && k in params :: kwargs[k];
    Aligned(named, Drop(args, |params|), map k | k in kwargs && k !in named :: kwargs[k])
  }

  /** Where the value aligned to one declared parameter comes from. */
  datatype Binding<T> = Keyword(value: T) | Positional(value: T) | Default(value: T) | Unbound

  /**
   The reference reading of alignment, parameter by parameter: a keyword
   argument wins over a positional one, which wins over a default.
   */
  function BindingOf<T>(params: seq<string>, seed: map<string, T>, args: seq<T>, kwargs: map<string, T>, i: nat): Binding<T>
    requires i < |params|
  {
    var name := params[i];
    if name in kwargs then Keyword(kwargs[name])
    else if i < |args| then Positional(args[i])
    else if name in seed then Default(seed[name])
    else Unbound
  }

  /** The named map of `Align` holds exactly the bindings of the reference reading. */
  lemma AlignNamedBinding<T>(params: seq<string>, seed: map<string, T>, args: seq<T>, kwargs: map<string, T>, i: nat)
    requires Distinct(params)
    requires i < |params|
    ensures var a := Align(params, seed, args, kwargs);
      var b := BindingOf(params, seed, args, kwargs, i);
      && (params[i] in a.named <==> !b.Unbound?)
      && (params[i] in a.named ==> a.named[params[i]] == b.value)
  {
    var ps := Zip(Take(params, |args|), args);
    assert forall j :: 0 <= j < |ps| ==> ps[j].0 == params[j];
    var name := params[i];
    if name !in kwargs {
      if i < |args| {
        UpdateWithDistinct(seed, ps, i);
      } else {
        assert name !in KeysOf(ps);
        UpdateWithUntouched(seed, ps, name);
      }
    }
  }

  /** Every parameter at once, and nothing but declared parameters in the named map. */
  lemma AlignIsBinding<T>(params: seq<string>, seed: map<string, T>, args: seq<T>, kwargs: map<string, T>)
    requires Distinct(params)
    requires KeysIn(seed, params)
    ensures var a := Align(params, seed, args, kwargs);
      && KeysIn(a.named, params)
      && forall i :: 0 <= i < |params| ==>
        && (params[i] in a.named <==> !BindingOf(params, seed, args, kwargs, i).Unbound?)
        && (params[i] in a.named ==> a.named[params[i]] == BindingOf(params, seed, args, kwargs, i).value)
  {
    forall i | 0 <= i < |params|
      ensures var a := Align(params, seed, args, kwargs);
        && (params[i] in a.named <==> !BindingOf(params, seed, args, kwargs, i).Unbound?)
        && (params[i] in a.named ==> a.named[params[i]] == BindingOf(params, seed, args, kwargs, i).value)
    {
      AlignNamedBinding(params, seed, args, kwargs, i);
    }
  }

  /** With no declared parameters nothing is named and every argument is surplus. */
  lemma AlignOpaque<T>(args: seq<T>, kwargs: map<string, T>)
    ensures Align([], map[], args, kwargs) == Aligned(map[], args, kwargs)
  {
    var a := Align([], map[], args, kwargs);
    assert a.named == map[];
    assert a.extraArgs == args;
    assert a.extraKwargs == kwargs;
  }
}

=== FILE: argspecs.dfy ===
/**
 The signature descriptor a spy keeps for its target: the names of the
 declared parameters, the names of the `*args` and `**kwargs` slots, and the
 default values of the trailing parameters. Introspecting a Python callable is
 outside the model, so the introspected signature is an input.
 */
module ArgSpecs {
  import opened Wrappers
  import opened Collections

  datatype ArgSpec<V> = ArgSpec(
    params: seq<string>,
    varargs: Option<string>,
    keywords: Option<string>,
    defaults: seq<V>)

  /** The degenerate descriptor of a callable whose signature cannot be read. */
  function OpaqueSpec<V>(): (d: ArgSpec<V>)
    ensures d.params == [] && d.defaults == []
    ensures d.varargs.Some? && d.keywords.Some?
  {
    ArgSpec([], Some("args"), Some("kwargs"), [])
  }

  /**
   The descriptor the spy stores. `isNotInspectable` wins over `isMethod`;
   a method's receiver is dropped from the names while its defaults are kept.
   */
  function Descriptor<V>(sig: ArgSpec<V>, isMethod: bool, isNotInspectable: bool): (d: ArgSpec<V>)
    ensures isNotInspectable ==> d.params == [] && d.defaults == []
    ensures !isNotInspectable ==> d.defaults == sig.defaults && d.varargs == sig.varargs && d.keywords == sig.keywords
    ensures !isNotInspectable && isMethod ==> |d.params| == if |sig.params| == 0 then 0 else |sig.params| - 1
    ensures !isNotInspectable && isMethod ==> forall i :: 0 <= i < |d.params| ==> d.params[i] == sig.params[i + 1]
    ensures !isNotInspectable && !isMethod ==> d.params == sig.params
  {
    if isNotInspectable then OpaqueSpec()
    else if isMethod then ArgSpec(Drop(sig.params, 1), sig.varargs, sig.keywords, sig.defaults)
    else sig
  }

  /**
   The default seed exactly as the matchers compute it:
   `zip(params[len(defaults)+1::-1], defaults[::-1])`, turned into a dictionary.
   */
  function SourceSeed<V>(spec: ArgSpec<V>): (m: map<string, V>)
    ensures KeysIn(m, spec.params)
  {
    if |spec.defaults| > 0 then
      UpdateWith(map[], Zip(ReverseFrom(spec.params, |spec.defaults| + 1), Reverse(spec.defaults)))
    else map[]
  }

  /** The parameters that carry a default: the last `|defaults|` names. */
  function DefaultedFrom<V>(spec: ArgSpec<V>): int {
    |spec.params| - |spec.defaults|
  }

  /**
   The default seed the matchers use: every one of the last `|defaults|`
   parameters maps to its own default, in order, and nothing else is seeded.
   */
  function DefaultSeed<V>(spec: ArgSpec<V>): (m: map<string, V>)
    ensures KeysIn(m, spec.params)
    ensures m.Keys == set i | 0 <= i < |spec.params| && i >= DefaultedFrom(spec) :: spec.params[i]
    ensures Distinct(spec.params) ==>
      forall i :: 0 <= i < |spec.params| && i >= DefaultedFrom(spec) ==>
        m[spec.params[i]] == spec.defaults[i - DefaultedFrom(spec)]
  {
    var ps := Zip(Reverse(spec.params), Reverse(spec.defaults));
    var m := if |spec.defaults| > 0 then UpdateWith(map[], ps) else map[];
    TrailingKeys(spec, ps);
    if Distinct(spec.params) then TrailingValues(spec, ps); m else m
  }

  lemma TrailingKeys<V>(spec: ArgSpec<V>, ps: seq<(string, V)>)
    requires ps == Zip(Reverse(spec.params), Reverse(spec.defaults))
    ensures KeysOf(ps) == set i | 0 <= i < |spec.params| && i >= DefaultedFrom(spec) :: spec.params[i]
  {
    var n := |spec.params|;
    forall k | k in KeysOf(ps)
      ensures k in set i | 0 <= i < n && i >= DefaultedFrom(spec) :: spec.params[i]
    {
      var j :| 0 <= j < |ps| && ps[j].0 == k;
      assert spec.params[n - 1 - j] == k;
    }
    forall i | 0 <= i < n && i >= DefaultedFrom(spec) ensures spec.params[i] in KeysOf(ps) {
      assert ps[n - 1 - i].0 == spec.params[i];
    }
  }

  /**
   The pairs of the reversed signature carry the names and the defaults
   backwards, so distinct names stay distinct.
   */
  lemma ReversedPairs<V>(spec: ArgSpec<V>, ps: seq<(string, V)>)
    requires ps == Zip(Reverse(spec.params), Reverse(spec.defaults))
    requires Distinct(spec.params)
    ensures |ps| == Min(|spec.params|, |spec.defaults|)
    ensures forall a :: 0 <= a < |ps| ==> ps[a].0 == spec.params[|spec.params| - 1 - a]
    ensures forall a :: 0 <= a < |ps| ==> ps[a].1 == spec.defaults[|spec.defaults| - 1 - a]
    ensures forall a, b :: 0 <= a < b < |ps| ==> ps[a].0 != ps[b].0
  {
  }

  lemma TrailingValues<V>(spec: ArgSpec<V>, ps: seq<(string, V)>)
    requires ps == Zip(Reverse(spec.params), Reverse(spec.defaults))
    requires Distinct(spec.params)
    ensures forall i :: 0 <= i < |spec.params| && i >= DefaultedFrom(spec) ==>
      && spec.params[i] in UpdateWith(map[], ps)
      && UpdateWith(map[], ps)[spec.params[i]] == spec.defaults[i - DefaultedFrom(spec)]
  {
    var n := |spec.params|;
    ReversedPairs(spec, ps);
    forall i | 0 <= i < n && i >= DefaultedFrom(spec)
      ensures spec.params[i] in UpdateWith(map[], ps)
      ensures UpdateWith(map[], ps)[spec.params[i]] == spec.defaults[i - DefaultedFrom(spec)]
    {
      var a := n - 1 - i;
      assert ps[a].0 == spec.params[i] && ps[a].1 == spec.defaults[i - DefaultedFrom(spec)];
      UpdateWithDistinct(map[], ps, a);
    }
  }

  /**
   The seed as written agrees with the intended one whenever the signature
   has at most two parameters more than it has defaults.
   */
  lemma SourceSeedAgrees<V>(spec: ArgSpec<V>)
    requires |spec.params| <= |spec.defaults| + 2
    ensures SourceSeed(spec) == DefaultSeed(spec)
  {
    assert ReverseFrom(spec.params, |spec.defaults| + 1) == Reverse(spec.params);
  }

  /** The seed as written only reaches the first `len(defaults) + 2` parameters. */
  lemma SourceSeedFront<V>(spec: ArgSpec<V>)
    requires |spec.params| >= |spec.defaults| + 2
    ensures forall k | k in SourceSeed(spec) :: exists i :: 0 <= i < |spec.defaults| + 2 && spec.params[i] == k
  {
    var d := |spec.defaults|;
    if d > 0 {
      var front := Take(spec.params, d + 2);
      var walk := ReverseFrom(spec.params, d + 1);
      assert |front| == d + 2 && walk == Reverse(front);
      var ps := Zip(walk, Reverse(spec.defaults));
      assert SourceSeed(spec).Keys == KeysOf(ps);
      forall k | k in KeysOf(ps)
        ensures exists i :: 0 <= i < d + 2 && spec.params[i] == k
      {
        var j :| 0 <= j < |ps| && ps[j].0 == k;
        assert walk[j] == front[d + 1 - j];
        assert front[d + 1 - j] == spec.params[d + 1 - j];
      }
    }
  }

  /**
   Conversely, with defaults and more than `len(defaults) + 2` distinct
   parameters, the seed as written misses the last parameter, which the
   corrected seed binds, so the two seeds always differ.
   */
  lemma SourceSeedDiffers<V>(spec: ArgSpec<V>)
    requires Distinct(spec.params)
    requires 0 < |spec.defaults| && |spec.params| > |spec.defaults| + 2
    ensures spec.params[|spec.params| - 1] in DefaultSeed(spec)
    ensures spec.params[|spec.params| - 1] !in SourceSeed(spec)
    ensures SourceSeed(spec) != DefaultSeed(spec)
  {
    var n := |spec.params|;
    assert n - 1 >= DefaultedFrom(spec);
    SourceSeedFront(spec);
    forall i | 0 <= i < |spec.defaults| + 2
      ensures spec.params[i] != spec.params[n - 1]
    {
    }
  }

  /**
   With `def f(a, b, c, d=4)` the seed as written pairs the default with
   `c` (a parameter without a default) and leaves `d` out.
   */
  lemma SourceSeedCounterexample()
    ensures var spec := ArgSpec(["a", "b", "c", "d"], None, None, [4]);
      && SourceSeed(spec) == map["c" := 4]
      && DefaultSeed(spec) == map["d" := 4]
  {
    var spec := ArgSpec(["a", "b", "c", "d"], None, None, [4]);
    var src := Zip(ReverseFrom(spec.params, 2), Reverse(spec.defaults));
    assert src == [("c", 4)];
    assert UpdateWith(map[], src) == UpdateWith(map["c" := 4], []);
    var fixed := Zip(Reverse(spec.params), Reverse(spec.defaults));
    assert fixed == [("d", 4)];
    assert UpdateWith(map[], fixed) == UpdateWith(map["d" := 4], []);
  }
}

=== FILE: bdd.dfy ===
/**
 The bookkeeping of the given/when/then step printer. Entering a step
 allocates the next index, goes one level deeper and stores the step's entry
 line; leaving it goes one level up and records how the step ended. When the
 outermost step is left, everything recorded is handed to the printer and
 the state starts over.
 */
module Bdd {
  import opened Wrappers
  import opened Text

  /** The step names the object answers to. */
  datatype StepKind = Given | When | Then | Also | And | But

  const BddNames: seq<string> := ["given", "when", "then", "also", "and_", "but"]

  /** The attribute name that produces a step of this kind. */
  function StepName(k: StepKind): (name: string)
    ensures name in BddNames
  {
    match k
    case Given => "given"
    case When => "when"
    case Then => "then"
    case Also => "also"
    case And => "and_"
    case But => "but"
  }

  /**
   The attribute gate: a name in the list produces a step of its kind, any
   other name fails with the attribute error's message.
   */
  function LookupStep(name: string): (r: Result<StepKind, string>)
    ensures r.Ok? <==> name in BddNames
    ensures r.Ok? ==> StepName(r.value) == name
    ensures r.Err? ==> r.error == "No such attribute " + name
  {
    if name == "given" then Ok(Given)
    else if name == "when" then Ok(When)
    else if name == "then" then Ok(Then)
    else if name == "also" then Ok(Also)
    else if name == "and_" then Ok(And)
    else if name == "but" then Ok(But)
    else Err("No such attribute " + name)
  }

  /** Every step kind is reached through its own name. */
  lemma LookupStepName(k: StepKind)
    ensures LookupStep(StepName(k)) == Ok(k)
  {
  }

  /**
   The step name as printed: underscores become spaces, the result is
   capitalised and stripped.
   */
  function Clean(levelName: string): (r: string)
    ensures |r| <= |levelName|
    ensures |r| > 0 ==> !IsSpace(r[0]) && !IsSpace(r[|r| - 1])
  {
    Strip(Capitalize(Replace(levelName, '_', ' ')))
  }

  /** A lower-case word is printed with its first letter upper-cased and the rest unchanged. */
  lemma CleanWord(w: string)
    requires |w| > 0 && forall i :: 0 <= i < |w| ==> IsLower(w[i])
    ensures Clean(w) == [ToUpper(w[0])] + w[1..]
  {
    assert Replace(w, '_', ' ') == w;
    StripTrimmed(Capitalize(w));
    assert Capitalize(w) == [ToUpper(w[0])] + w[1..];
  }

  /** The printed names of the six steps; `and_` loses its trailing underscore. */
  lemma CleanStepNames()
    ensures Clean(StepName(Given)) == "Given"
    ensures Clean(StepName(When)) == "When"
    ensures Clean(StepName(Then)) == "Then"
    ensures Clean(StepName(Also)) == "Also"
    ensures Clean(StepName(And)) == "And"
    ensures Clean(StepName(But)) == "But"
  {
    CleanGivenWhenThen();
    CleanAlsoBut();
    CleanAnd();
  }

  lemma CleanGivenWhenThen()
    ensures Clean("given") == "Given" && Clean("when") == "When" && Clean("then") == "Then"
  {
    CleanWord("given");
    assert Clean("given") == "Given" by { assert ToUpper('g') == 'G'; assert "given"[1..] == "iven"; }
    CleanWord("when");
    assert Clean("when") == "When" by { assert ToUpper('w') == 'W'; assert "when"[1..] == "hen"; }
    CleanWord("then");
    assert Clean("then") == "Then" by { assert ToUpper('t') == 'T'; assert "then"[1..] == "hen"; }
  }

  lemma CleanAlsoBut()
    ensures Clean("also") == "Also" && Clean("but") == "But"
  {
    CleanWord("also");
    assert Clean("also") == "Also" by { assert ToUpper('a') == 'A'; assert "also"[1..] == "lso"; }
    CleanWord("but");
    assert Clean("but") == "But" by { assert ToUpper('b') == 'B'; assert "but"[1..] == "ut"; }
  }

  lemma CleanAnd()
    ensures Clean("and_") == "And"
  {
    var spaced := Capitalize(Replace("and_", '_', ' '));
    assert spaced == "And ";
    assert LeadingSpaces(spaced) == 0;
    assert spaced[0..] == spaced;
    assert spaced[..3] == "And";
    assert TrailingSpaces("And") == 0;
    assert TrailingSpaces(spaced) == 1;
  }

  /** How a step ended. */
  datatype Verdict = Pass | Ignore | Warning | Fail

  /** An exception leaving a step: its type, and its `repr` as text. */
  datatype Raised<X> = Raised(excType: X, shown: string)

  /** What is recorded when a step is left: the verdict and the exception's text, if any. */
  datatype ExitRecord = ExitRecord(verdict: Verdict, detail: Option<string>)

  datatype Bdd = Bdd(
    levelBullet: string,
    maxWidth: int,
    indentStr: string,
    level: int,
    index: int,
    entryData: map<int, string>,
    exitData: map<int, ExitRecord>)

  /** A fresh printer: no step open, nothing recorded. */
  function NewBdd(levelBullet: string, maxWidth: int, indentStr: string): (b: Bdd)
    ensures b.levelBullet == levelBullet && b.maxWidth == maxWidth && b.indentStr == indentStr
    ensures b.level == 0 && b.index == 0 && b.entryData == map[] && b.exitData == map[]
  {
    Bdd(levelBullet, maxWidth, indentStr, 0, 0, map[], map[])
  }

  /** The printer with its default bullet `->`, width 120 and two-space indentation. */
  function DefaultBdd(): (b: Bdd)
    ensures b.levelBullet == "->" && b.maxWidth == 120 && b.indentStr == "  "
    ensures Wf(b) && b.level == 0
  {
    NewBdd("->", 120, "  ")
  }

  /** The line stored for a step entered at depth `level`. */
  function EntryLine(b: Bdd, level: int, levelName: string, text: string): (line: string)
    ensures |line| >= |b.levelBullet| + |text| + 2
    ensures line[|line| - |text|..] == text && line[|line| - |text| - 1] == ' '
    ensures level <= 0 ==> line[..|b.levelBullet| + 1] == b.levelBullet + " "
    ensures level >= 0 ==>
      |line| == level * |b.indentStr| + |b.levelBullet| + |Clean(levelName)| + |text| + 2
    ensures level >= 0 ==>
      line[level * |b.indentStr| .. level * |b.indentStr| + |b.levelBullet| + |Clean(levelName)| + 2] ==
        b.levelBullet + " " + Clean(levelName) + " "
    ensures forall i :: 0 <= i < (if level <= 0 then 0 else level * |b.indentStr|) ==> line[i] in b.indentStr
  {
    var indent := Repeat(b.indentStr, level);
    assert level >= 0 ==> |indent| == level * |b.indentStr|;
    assert level <= 0 ==> |indent| == 0;
    EntryLayout(indent, b.levelBullet, Clean(levelName), text);
    indent + b.levelBullet + " " + Clean(levelName) + " " + text
  }

  /** Where the indentation, the bullet, the step name and the text sit in an entry line. */
  lemma EntryLayout(indent: string, bullet: string, name: string, text: string)
    ensures var line := indent + bullet + " " + name + " " + text;
      && |line| == |indent| + |bullet| + |name| + |text| + 2
      && line[|line| - |text|..] == text && line[|line| - |text| - 1] == ' '
      && line[|indent|..|indent| + |bullet| + |name| + 2] == bullet + " " + name + " "
      && line[|indent|..|indent| + |bullet| + 1] == bullet + " "
      && forall i :: 0 <= i < |indent| ==> line[i] == indent[i]
  {
    var head := bullet + " " + name + " ";
    var line := indent + head + text;
    assert indent + bullet + " " + name + " " + text == line;
    assert line[|indent|..|indent| + |head|] == head;
    assert head[..|bullet| + 1] == bullet + " ";
    assert line[|line| - |text|..] == text;
  }

  /** Everything but the counters and the recorded data is left as it was. */
  predicate SameSettings(b: Bdd, c: Bdd) {
    b.levelBullet == c.levelBullet && b.maxWidth == c.maxWidth && b.indentStr == c.indentStr
  }

  /**
   Entering a step: returns the index before the call, advances the index and
   the level by one, and stores the entry line under the returned index.
   */
  function Enter(b: Bdd, levelName: string, text: string): (r: (Bdd, int))
    ensures r.1 == b.index
    ensures r.0.index == b.index + 1 && r.0.level == b.level + 1
    ensures SameSettings(b, r.0)
    ensures r.0.entryData.Keys == b.entryData.Keys + {b.index}
    ensures r.0.entryData[b.index] == EntryLine(b, b.level + 1, levelName, text)
    ensures forall k | k in b.entryData && k != b.index :: r.0.entryData[k] == b.entryData[k]
    ensures r.0.exitData == b.exitData
  {
    var c := b.(index := b.index + 1, level := b.level + 1);
    (c.(entryData := b.entryData[b.index := EntryLine(b, c.level, levelName, text)]), b.index)
  }

  /**
   The verdict for the exception leaving a step: no exception passes; an
   exception type in the ignore list is ignored even if it is also in the warn
   list; one only in the warn list warns; any other fails.
   */
  function Classify<X(==)>(exc: Option<X>, warn: seq<X>, ignore: seq<X>): (v: Verdict)
    ensures v == Pass <==> exc.None?
    ensures v == Ignore <==> exc.Some? && exc.value in ignore
    ensures v == Warning <==> exc.Some? && exc.value !in ignore && exc.value in warn
    ensures v == Fail <==> exc.Some? && exc.value !in ignore && exc.value !in warn
  {
    match exc
    case None => Pass
    case Some(t) => if t in ignore then Ignore else if t in warn then Warning else Fail
  }

  /** The exception type, if any. */
  function TypeOf<X>(exc: Option<Raised<X>>): (t: Option<X>)
    ensures t.Some? <==> exc.Some?
    ensures exc.Some? ==> t.value == exc.value.excType
  {
    match exc
    case None => None
    case Some(e) => Some(e.excType)
  }

  /** The record a step leaves: its verdict, and the exception's text when there was one. */
  function Record<X(==)>(exc: Option<Raised<X>>, warn: seq<X>, ignore: seq<X>): (rec: ExitRecord)
    ensures rec.verdict == Classify(TypeOf(exc), warn, ignore)
    ensures rec.detail.Some? <==> exc.Some?
    ensures exc.Some? ==> rec.detail.value == exc.value.shown
  {
    ExitRecord(Classify(TypeOf(exc), warn, ignore), if exc.Some? then Some(exc.value.shown) else None)
  }

  /**
   Leaving a step: the level goes down by one and the step's record is stored
   under its index; the result is false (the exception propagates) exactly
   when the step failed. Returning to level 0 forgets every record and
   restarts the index at 0.
   */
  function Exit<X(==)>(b: Bdd, exc: Option<Raised<X>>, stepIndex: int, warn: seq<X>, ignore: seq<X>): (r: (Bdd, bool))
    ensures r.1 <==> Classify(TypeOf(exc), warn, ignore) != Fail
    ensures r.0.level == b.level - 1 && SameSettings(b, r.0)
    ensures b.level - 1 != 0 ==>
      && r.0.index == b.index && r.0.entryData == b.entryData
      && r.0.exitData == b.exitData[stepIndex := Record(exc, warn, ignore)]
    ensures b.level - 1 == 0 ==> r.0.index == 0 && r.0.entryData == map[] && r.0.exitData == map[]
  {
    var rec := Record(exc, warn, ignore);
    var c := b.(level := b.level - 1, exitData := b.exitData[stepIndex := rec]);
    var result := rec.verdict != Fail;
    if c.level == 0 then (c.(entryData := map[], exitData := map[], index := 0), result)
    else (c, result)
  }

  /**
   The invariant of properly nested use: the level is not negative, the
   entries are exactly the indices handed out so far, every exit record
   belongs to an entry, and at level 0 nothing is recorded.
   */
  ghost predicate Wf(b: Bdd) {
    && b.level >= 0 && b.index >= 0
    && (forall k :: k in b.entryData <==> 0 <= k < b.index)
    && b.exitData.Keys <= b.entryData.Keys
    && (b.level == 0 ==> b.index == 0 && b.entryData == map[] && b.exitData == map[])
  }

  lemma NewBddWf(levelBullet: string, maxWidth: int, indentStr: string)
    ensures Wf(NewBdd(levelBullet, maxWidth, indentStr))
  {
  }

  /** Entering a step keeps the invariant. */
  lemma EnterWf(b: Bdd, levelName: string, text: string)
    requires Wf(b)
    ensures Wf(Enter(b, levelName, text).0)
  {
  }

  /** Leaving an open step, by an index it was given, keeps the invariant. */
  lemma ExitWf<X>(b: Bdd, exc: Option<Raised<X>>, stepIndex: int, warn: seq<X>, ignore: seq<X>)
    requires Wf(b) && b.level >= 1
    requires 0 <= stepIndex < b.index
    ensures Wf(Exit(b, exc, stepIndex, warn, ignore).0)
  {
  }

  /**
   An outermost step entered and left again returns the printer to the state
   it started from; the result says whether the exception is swallowed.
   */
  lemma OutermostRoundTrip<X>(b: Bdd, levelName: string, text: string, exc: Option<Raised<X>>, warn: seq<X>, ignore: seq<X>)
    requires Wf(b) && b.level == 0
    ensures var (entered, i) := Enter(b, levelName, text);
      Exit(entered, exc, i, warn, ignore) == (b, Classify(TypeOf(exc), warn, ignore) != Fail)
  {
  }

  /**
   A step nested in an outer one: while the outer step is open, the inner
   step's entry and exit are both recorded under the index after the outer's.
   */
  lemma NestedStepRecorded<X>(b: Bdd, outer: string, inner: string, text: string, exc: Option<Raised<X>>, warn: seq<X>, ignore: seq<X>)
    requires Wf(b) && b.level == 0
    ensures var (b1, i) := Enter(b, outer, text);
      var (b2, j) := Enter(b1, inner, text);
      var (b3, _) := Exit(b2, exc, j, warn, ignore);
      && i == 0 && j == 1 && b3.level == 1
      && b3.entryData.Keys == {0, 1}
      && b3.exitData == map[1 := Record(exc, warn, ignore)]
  {
    var (b1, i) := Enter(b, outer, text);
    assert b1.entryData.Keys == {0};
  }
}

=== FILE: collections.dfy ===
/**
 The handful of Python sequence and dictionary primitives the matchers are
 built from: slicing, `zip`, building a `dict` from pairs, and counting the
 elements that satisfy a predicate.
 */
module Collections {

  function Min(a: int, b: int): int {
    if a <= b then a else b
  }

  /** Every key of `m` occurs in `s`. */
  predicate KeysIn<K(==), W>(m: map<K, W>, s: seq<K>) {
    forall k | k in m :: k in s
  }

  /** No element occurs twice: the names of a Python signature are distinct. */
  predicate Distinct<T(==)>(s: seq<T>) {
    forall i, j :: 0 <= i < j < |s| ==> s[i] != s[j]
  }

  /** `s[n:]` for a non-negative `n`: what follows the first `n` elements. */
  function Drop<T>(s: seq<T>, n: nat): (r: seq<T>)
    ensures |r| == if n <= |s| then |s| - n else 0
    ensures forall i :: 0 <= i < |r| ==> r[i] == s[n + i]
  {
    if n <= |s| then s[n..] else []
  }

  /** `s[:n]` for a non-negative `n`: at most the first `n` elements. */
  function Take<T>(s: seq<T>, n: nat): (r: seq<T>)
    ensures |r| == Min(n, |s|)
    ensures r == s[..|r|]
  {
    if n <= |s| then s[..n] else s
  }

  /** `s[::-1]`. */
  function Reverse<T>(s: seq<T>): (r: seq<T>)
    ensures |r| == |s|
    ensures forall i :: 0 <= i < |s| ==> r[i] == s[|s| - 1 - i]
  {
    seq(|s|, i requires 0 <= i < |s| => s[|s| - 1 - i])
  }

  /**
   `s[k::-1]` for a non-negative `k`: starts at index `min(k, |s| - 1)` and
   walks backwards to index 0, which is the reverse of `s[:k+1]`.
   */
  function ReverseFrom<T>(s: seq<T>, k: nat): (r: seq<T>)
    ensures r == Reverse(Take(s, k + 1))
  {
    if |s| == 0 then [] else Reverse(s[..Min(k, |s| - 1) + 1])
  }

  /** Python's `zip`: pairs elements up and stops at the shorter sequence. */
  function Zip<A, B>(xs: seq<A>, ys: seq<B>): (r: seq<(A, B)>)
    ensures |r| == Min(|xs|, |ys|)
    ensures forall i :: 0 <= i < |r| ==> r[i] == (xs[i], ys[i])
  {
    seq(Min(|xs|, |ys|), i requires 0 <= i < Min(|xs|, |ys|) => (xs[i], ys[i]))
  }

  /** The keys of a sequence of pairs. */
  function KeysOf<K, W>(ps: seq<(K, W)>): set<K> {
    set i | 0 <= i < |ps| :: ps[i].0
  }

  /**
   `dict.update(pairs)`: the pairs are stored left to right, so a later pair
   overwrites an earlier one with the same key.
   */
  function UpdateWith<K, W>(m: map<K, W>, ps: seq<(K, W)>): (r: map<K, W>)
    ensures r.Keys == m.Keys + KeysOf(ps)
    decreases |ps|
  {
    if |ps| == 0 then m
    else
      var r := UpdateWith(m[ps[0].0 := ps[0].1], ps[1..]);
      assert KeysOf(ps) == {ps[0].0} + KeysOf(ps[1..]) by {
        forall k | k in KeysOf(ps) ensures k in {ps[0].0} + KeysOf(ps[1..]) {
          var i :| 0 <= i < |ps| && ps[i].0 == k;
          if i > 0 { assert ps[1..][i - 1] == ps[i]; }
        }
      }
      r
  }

  /** A key no pair mentions keeps whatever the map had for it. */
  lemma {:induction false} UpdateWithUntouched<K, W>(m: map<K, W>, ps: seq<(K, W)>, k: K)
    requires k !in KeysOf(ps)
    ensures k in UpdateWith(m, ps) <==> k in m
    ensures k in m ==> UpdateWith(m, ps)[k] == m[k]
    decreases |ps|
  {
    if |ps| > 0 {
      assert ps[0].0 != k;
      assert k !in KeysOf(ps[1..]) by {
        forall j | 0 <= j < |ps[1..]| ensures ps[1..][j].0 != k {
          assert ps[1..][j] == ps[j + 1];
        }
      }
      UpdateWithUntouched(m[ps[0].0 := ps[0].1], ps[1..], k);
    }
  }

  /** With pairwise distinct keys, every pair survives the update. */
  lemma {:induction false} UpdateWithDistinct<K, W>(m: map<K, W>, ps: seq<(K, W)>, i: nat)
    requires i < |ps|
    requires forall a, b :: 0 <= a < b < |ps| ==> ps[a].0 != ps[b].0
    ensures ps[i].0 in UpdateWith(m, ps) && UpdateWith(m, ps)[ps[i].0] == ps[i].1
    decreases |ps|
  {
    var m' := m[ps[0].0 := ps[0].1];
    if i == 0 {
      assert ps[0].0 !in KeysOf(ps[1..]) by {
        forall j | 0 <= j < |ps[1..]| ensures ps[1..][j].0 != ps[0].0 {
          assert ps[1..][j] == ps[j + 1];
        }
      }
      UpdateWithUntouched(m', ps[1..], ps[0].0);
    } else {
      assert ps[1..][i - 1] == ps[i];
      UpdateWithDistinct(m', ps[1..], i - 1);
    }
  }

  /** How many elements satisfy `p`: the length of `filter(None, map(p, s))`. */
  function Count<T>(s: seq<T>, p: T -> bool): (n: nat)
    ensures n <= |s|
  {
    if |s| == 0 then 0
    else Count(s[..|s| - 1], p) + (if p(s[|s| - 1]) then 1 else 0)
  }

  /** The positions of the elements that satisfy `p`. */
  function Satisfying<T>(s: seq<T>, p: T -> bool): set<int> {
    set i | 0 <= i < |s| && p(s[i])
  }

  /** The count is the number of positions whose element satisfies `p`. */
  lemma {:induction false} CountIsCardinality<T>(s: seq<T>, p: T -> bool)
    ensures Count(s, p) == |Satisfying(s, p)|
  {
    if |s| == 0 {
      assert Satisfying(s, p) == {};
    } else {
      var s' := s[..|s| - 1];
      var last := |s| - 1;
      CountIsCardinality(s', p);
      assert forall i :: 0 <= i < |s'| ==> s'[i] == s[i];
      var below := Satisfying(s', p);
      assert last !in below;
      if p(s[last]) {
        assert Satisfying(s, p) == below + {last};
      } else {
        assert Satisfying(s, p) == below;
      }
    }
  }

  lemma {:induction false} CountZero<T>(s: seq<T>, p: T -> bool)
    ensures Count(s, p) == 0 <==> forall i :: 0 <= i < |s| ==> !p(s[i])
  {
    if |s| > 0 {
      var s' := s[..|s| - 1];
      CountZero(s', p);
      assert forall i :: 0 <= i < |s'| ==> s'[i] == s[i];
    }
  }

  lemma {:induction false} CountAll<T>(s: seq<T>, p: T -> bool)
    ensures Count(s, p) == |s| <==> forall i :: 0 <= i < |s| ==> p(s[i])
  {
    if |s| > 0 {
      var s' := s[..|s| - 1];
      CountAll(s', p);
      assert forall i :: 0 <= i < |s'| ==> s'[i] == s[i];
    }
  }

  lemma CountPositive<T>(s: seq<T>, p: T -> bool)
    ensures Count(s, p) >= 1 <==> exists i :: 0 <= i < |s| && p(s[i])
  {
    CountZero(s, p);
  }

  lemma {:induction false} CountOne<T>(s: seq<T>, p: T -> bool)
    ensures Count(s, p) == 1 <==>
      exists i :: 0 <= i < |s| && p(s[i]) && forall j :: 0 <= j < |s| && j != i ==> !p(s[j])
  {
    if |s| > 0 {
      var s' := s[..|s| - 1];
      var last := |s| - 1;
      assert forall i :: 0 <= i < |s'| ==> s'[i] == s[i];
      CountOne(s', p);
      CountZero(s', p);
      if Count(s, p) == 1 {
        if p(s[last]) {
          assert forall j :: 0 <= j < |s| && j != last ==> !p(s[j]);
        } else {
          var i :| 0 <= i < |s'| && p(s'[i]) && forall j :: 0 <= j < |s'| && j != i ==> !p(s'[j]);
          assert forall j :: 0 <= j < |s| && j != i ==> !p(s[j]);
        }
      }
      if exists i :: 0 <= i < |s| && p(s[i]) && forall j :: 0 <= j < |s| && j != i ==> !p(s[j]) {
        var i :| 0 <= i < |s| && p(s[i]) && forall j :: 0 <= j < |s| && j != i ==> !p(s[j]);
        if i == last {
          assert Count(s', p) == 0;
        } else {
          assert !p(s[last]);
          assert forall j :: 0 <= j < |s'| && j != i ==> !p(s'[j]);
        }
      }
    }
  }

  /** A stronger filter keeps no more elements than a weaker one. */
  lemma {:induction false} CountMonotone<T>(s: seq<T>, p: T -> bool, q: T -> bool)
    requires forall i :: 0 <= i < |s| ==> p(s[i]) ==> q(s[i])
    ensures Count(s, p) <= Count(s, q)
  {
    if |s| > 0 {
      var s' := s[..|s| - 1];
      assert forall i :: 0 <= i < |s'| ==> s'[i] == s[i];
      CountMonotone(s', p, q);
    }
  }

  /** Appending one element adds one to the count exactly when it satisfies `p`. */
  lemma CountSnoc<T>(s: seq<T>, x: T, p: T -> bool)
    ensures Count(s + [x], p) == Count(s, p) + (if p(x) then 1 else 0)
  {
    assert (s + [x])[..|s|] == s;
  }
}

=== FILE: matching.dfy ===
/**
 The two matchers. Both align the recorded call and the predicate pattern
 against the same signature descriptor and then compare the two alignments:
 exact match demands that both supply the same arguments, partial match only
 that the call supplies what the pattern mentions.
 */
module Matching {
  import opened Wrappers
  import opened Collections
  import opened ArgSpecs
  import opened Alignment
  import opened Predicates

  /** One successful call: its positional and keyword arguments. */
  datatype Invocation<V> = Invocation(args: seq<V>, kwargs: map<string, V>)

  /** A predicate for each positional and each keyword argument of interest. */
  datatype Pattern<!V> = Pattern(args: seq<V -> bool>, kwargs: map<string, V -> bool>)

  /** The call side is seeded with the defaults of the signature. */
  function AlignCall<V>(spec: ArgSpec<V>, call: Invocation<V>): Aligned<V> {
    Align(spec.params, DefaultSeed(spec), call.args, call.kwargs)
  }

  /** The pattern side is not seeded. */
  function AlignPattern<V>(spec: ArgSpec<V>, pat: Pattern<V>): Aligned<V -> bool> {
    Align(spec.params, map[], pat.args, pat.kwargs)
  }

  /** `all(p(v) for p, v in zip(preds, values))`. */
  predicate AllPairsAccept<V>(preds: seq<V -> bool>, values: seq<V>)
    ensures AllPairsAccept(preds, values) <==> forall i :: 0 <= i < |preds| && i < |values| ==> preds[i](values[i])
  {
    var pairs := Zip(preds, values);
    forall i | 0 <= i < |pairs| :: pairs[i].0(pairs[i].1)
  }

  predicate ExactAligned<V>(p: Aligned<V -> bool>, c: Aligned<V>) {
    if c.named.Keys == p.named.Keys && |c.extraArgs| == |p.extraArgs| && c.extraKwargs.Keys == p.extraKwargs.Keys then
      && (forall k | k in c.named :: p.named[k](c.named[k]))
      && AllPairsAccept(p.extraArgs, c.extraArgs)
      && (forall k | k in c.extraKwargs :: p.extraKwargs[k](c.extraKwargs[k]))
    else false
  }

  predicate PartialAligned<V>(p: Aligned<V -> bool>, c: Aligned<V>) {
    if p.named.Keys <= c.named.Keys && |c.extraArgs| >= |p.extraArgs| && p.extraKwargs.Keys <= c.extraKwargs.Keys then
      && (forall k | k in p.named :: p.named[k](c.named[k]))
      && AllPairsAccept(p.extraArgs, Take(c.extraArgs, |p.extraArgs|))
      && (forall k | k in p.extraKwargs :: p.extraKwargs[k](c.extraKwargs[k]))
    else false
  }

  /**
   Exact match: the call and the pattern supply the same named parameters,
   the same number of surplus positionals and the same surplus keyword names,
   and every predicate accepts its value.
   */
  function ExactMatch<V>(spec: ArgSpec<V>, pat: Pattern<V>, call: Invocation<V>): (r: bool)
    ensures r ==> (|call.args| > |spec.params| || |pat.args| > |spec.params| ==> |call.args| == |pat.args|)
    ensures r ==> forall i :: |spec.params| <= i < |call.args| ==> i < |pat.args| && pat.args[i](call.args[i])
    ensures r ==> Outside(call.kwargs, spec.params).Keys == Outside(pat.kwargs, spec.params).Keys
    ensures r ==> forall k :: k in call.kwargs && k !in spec.params ==> k in pat.kwargs && pat.kwargs[k](call.kwargs[k])
  {
    var n := |spec.params|;
    var p, c := AlignPattern(spec, pat), AlignCall(spec, call);
    assert |p.extraArgs| == if n <= |pat.args| then |pat.args| - n else 0;
    assert |c.extraArgs| == if n <= |call.args| then |call.args| - n else 0;
    var r := ExactAligned(p, c);
    assert r ==> forall i :: |spec.params| <= i < |call.args| ==> i < |pat.args| && pat.args[i](call.args[i]) by {
      if r {
        forall i | |spec.params| <= i < |call.args| ensures i < |pat.args| && pat.args[i](call.args[i]) {
          var j := i - |spec.params|;
          assert p.extraArgs[j](c.extraArgs[j]);
        }
      }
    }
    r
  }

  /**
   Partial match: the call supplies at least the named parameters, surplus
   positionals and surplus keyword names of the pattern, and every predicate
   of the pattern accepts its value; anything else the call passed is ignored.
   */
  function PartialMatch<V>(spec: ArgSpec<V>, pat: Pattern<V>, call: Invocation<V>): (r: bool)
    ensures r ==> (|pat.args| <= |spec.params| || |pat.args| <= |call.args|)
    ensures r ==> forall i :: |spec.params| <= i < |pat.args| ==> i < |call.args| && pat.args[i](call.args[i])
    ensures r ==> forall k :: k in pat.kwargs && k !in spec.params ==> k in call.kwargs && pat.kwargs[k](call.kwargs[k])
  {
    var p, c := AlignPattern(spec, pat), AlignCall(spec, call);
    var r := PartialAligned(p, c);
    assert r ==> forall i :: |spec.params| <= i < |pat.args| ==> i < |call.args| && pat.args[i](call.args[i]) by {
      if r {
        forall i | |spec.params| <= i < |pat.args| ensures i < |call.args| && pat.args[i](call.args[i]) {
          var j := i - |spec.params|;
          assert p.extraArgs[j](Take(c.extraArgs, |p.extraArgs|)[j]);
        }
      }
    }
    r
  }

  /** Exact match implies partial match for the same signature, pattern and call. */
  lemma ExactImpliesPartial<V>(spec: ArgSpec<V>, pat: Pattern<V>, call: Invocation<V>)
    ensures ExactMatch(spec, pat, call) ==> PartialMatch(spec, pat, call)
  {
    var p, c := AlignPattern(spec, pat), AlignCall(spec, call);
    if ExactMatch(spec, pat, call) {
      assert Take(c.extraArgs, |p.extraArgs|) == c.extraArgs;
    }
  }

  // ---------------------------------------------------------------------
  // The reference reading: both matchers restated parameter by parameter.
  // ---------------------------------------------------------------------

  /** The reference binding of every declared parameter on the call side. */
  function CallBindings<V>(spec: ArgSpec<V>, call: Invocation<V>): (bs: seq<Binding<V>>)
    ensures |bs| == |spec.params|
  {
    seq(|spec.params|, i requires 0 <= i < |spec.params| =>
      BindingOf(spec.params, DefaultSeed(spec), call.args, call.kwargs, i))
  }

  /** The reference binding of every declared parameter on the pattern side. */
  function PatternBindings<V>(spec: ArgSpec<V>, pat: Pattern<V>): (bs: seq<Binding<V -> bool>>)
    ensures |bs| == |spec.params|
  {
    seq(|spec.params|, i requires 0 <= i < |spec.params| =>
      BindingOf(spec.params, map[], pat.args, pat.kwargs, i))
  }

  /** `m` holds exactly the bound parameters of `bs`, with their values. */
  ghost predicate Describes<T>(params: seq<string>, m: map<string, T>, bs: seq<Binding<T>>) {
    && |bs| == |params|
    && KeysIn(m, params)
    && forall i | 0 <= i < |params| ::
      && (params[i] in m <==> !bs[i].Unbound?)
      && (params[i] in m ==> m[params[i]] == bs[i].value)
  }

  /** Every declared parameter is bound on both sides or on neither, and the predicate accepts. */
  ghost predicate ExactNamed<V>(pbs: seq<Binding<V -> bool>>, cbs: seq<Binding<V>>)
    requires |pbs| == |cbs|
  {
    forall i | 0 <= i < |cbs| ::
      && cbs[i].Unbound? == pbs[i].Unbound?
      && (!cbs[i].Unbound? ==> pbs[i].value(cbs[i].value))
  }

  /** Every parameter the pattern binds is bound by the call too, and the predicate accepts. */
  ghost predicate PartialNamed<V>(pbs: seq<Binding<V -> bool>>, cbs: seq<Binding<V>>)
    requires |pbs| == |cbs|
  {
    forall i | 0 <= i < |pbs| && !pbs[i].Unbound? ::
      !cbs[i].Unbound? && pbs[i].value(cbs[i].value)
  }

  ghost predicate ExactReference<V>(spec: ArgSpec<V>, pat: Pattern<V>, call: Invocation<V>) {
    var n := |spec.params|;
    && ExactNamed(PatternBindings(spec, pat), CallBindings(spec, call))
    && (|call.args| > n || |pat.args| > n ==> |call.args| == |pat.args|)
    && (forall i | n <= i < |call.args| && i < |pat.args| :: pat.args[i](call.args[i]))
    && Outside(call.kwargs, spec.params).Keys == Outside(pat.kwargs, spec.params).Keys
    && (forall k | k in call.kwargs && k !in spec.params && k in pat.kwargs :: pat.kwargs[k](call.kwargs[k]))
  }

  ghost predicate PartialReference<V>(spec: ArgSpec<V>, pat: Pattern<V>, call: Invocation<V>) {
    var n := |spec.params|;
    && PartialNamed(PatternBindings(spec, pat), CallBindings(spec, call))
    && (|pat.args| <= n || |pat.args| <= |call.args|)
    && (forall i | n <= i < |pat.args| && i < |call.args| :: pat.args[i](call.args[i]))
    && (forall k | k in pat.kwargs && k !in spec.params :: k in call.kwargs && pat.kwargs[k](call.kwargs[k]))
  }

  /** Both named maps are described by the reference bindings. */
  lemma AlignBoth<V>(spec: ArgSpec<V>, pat: Pattern<V>, call: Invocation<V>)
    requires Distinct(spec.params)
    ensures Describes(spec.params, AlignPattern(spec, pat).named, PatternBindings(spec, pat))
    ensures Describes(spec.params, AlignCall(spec, call).named, CallBindings(spec, call))
  {
    AlignIsBinding(spec.params, DefaultSeed(spec), call.args, call.kwargs);
    AlignIsBinding(spec.params, map[], pat.args, pat.kwargs);
  }

  lemma ExactNamedAgrees<V>(params: seq<string>, pn: map<string, V -> bool>, cn: map<string, V>,
                            pbs: seq<Binding<V -> bool>>, cbs: seq<Binding<V>>)
    requires Describes(params, pn, pbs) && Describes(params, cn, cbs)
    ensures (cn.Keys == pn.Keys && forall k | k in cn :: pn[k](cn[k])) <==> ExactNamed(pbs, cbs)
  {
    if ExactNamed(pbs, cbs) {
      forall k | k in cn ensures k in pn && pn[k](cn[k]) {
        var i :| 0 <= i < |params| && params[i] == k;
      }
      forall k | k in pn ensures k in cn {
        var i :| 0 <= i < |params| && params[i] == k;
      }
      assert cn.Keys == pn.Keys;
    }
    if cn.Keys == pn.Keys && forall k | k in cn :: pn[k](cn[k]) {
      forall i | 0 <= i < |params|
        ensures cbs[i].Unbound? == pbs[i].Unbound?
        ensures !cbs[i].Unbound? ==> pbs[i].value(cbs[i].value)
      {
        assert params[i] in cn <==> params[i] in pn;
      }
    }
  }

  lemma PartialNamedAgrees<V>(params: seq<string>, pn: map<string, V -> bool>, cn: map<string, V>,
                              pbs: seq<Binding<V -> bool>>, cbs: seq<Binding<V>>)
    requires Describes(params, pn, pbs) && Describes(params, cn, cbs)
    ensures (pn.Keys <= cn.Keys && forall k | k in pn && k in cn :: pn[k](cn[k])) <==> PartialNamed(pbs, cbs)
  {
    if PartialNamed(pbs, cbs) {
      forall k | k in pn ensures k in cn && pn[k](cn[k]) {
        var i :| 0 <= i < |params| && params[i] == k;
      }
    }
    if pn.Keys <= cn.Keys && forall k | k in pn && k in cn :: pn[k](cn[k]) {
      forall i | 0 <= i < |params| && !pbs[i].Unbound?
        ensures !cbs[i].Unbound? && pbs[i].value(cbs[i].value)
      {
        assert params[i] in pn;
      }
    }
  }

  /** `extra` is the tail of `args` beyond the first `n` elements, as `Align` builds it. */
  ghost predicate TailOf<T>(extra: seq<T>, args: seq<T>, n: nat) {
    && |extra| == (if n <= |args| then |args| - n else 0)
    && forall i :: 0 <= i < |extra| ==> extra[i] == args[n + i]
  }

  lemma ExactExtrasAgree<V>(n: nat, pa: seq<V -> bool>, ca: seq<V>, pe: seq<V -> bool>, ce: seq<V>)
    requires TailOf(pe, pa, n) && TailOf(ce, ca, n)
    ensures (|ce| == |pe| && AllPairsAccept(pe, ce))
      <==> ((|ca| > n || |pa| > n ==> |ca| == |pa|) && forall i | n <= i < |ca| && i < |pa| :: pa[i](ca[i]))
  {
    if |ce| == |pe| && AllPairsAccept(pe, ce) {
      forall i | n <= i < |ca| && i < |pa| ensures pa[i](ca[i]) {
        assert pe[i - n](ce[i - n]);
      }
    }
  }

  lemma PartialExtrasAgree<V>(n: nat, pa: seq<V -> bool>, ca: seq<V>, pe: seq<V -> bool>, ce: seq<V>)
    requires TailOf(pe, pa, n) && TailOf(ce, ca, n)
    ensures (|ce| >= |pe| && AllPairsAccept(pe, Take(ce, |pe|)))
      <==> ((|pa| <= n || |pa| <= |ca|) && forall i | n <= i < |pa| && i < |ca| :: pa[i](ca[i]))
  {
    if |ce| >= |pe| && AllPairsAccept(pe, Take(ce, |pe|)) {
      forall i | n <= i < |pa| && i < |ca| ensures pa[i](ca[i]) {
        assert pe[i - n](Take(ce, |pe|)[i - n]);
      }
    }
  }

  lemma ExactKwargsAgree<V>(params: seq<string>, pk: map<string, V -> bool>, ck: map<string, V>,
                            pe: map<string, V -> bool>, ce: map<string, V>)
    requires pe == Outside(pk, params) && ce == Outside(ck, params)
    ensures (ce.Keys == pe.Keys && forall k | k in ce :: pe[k](ce[k]))
      <==> (ce.Keys == pe.Keys && forall k | k in ck && k !in params && k in pk :: pk[k](ck[k]))
  {
  }

  /** Exact comparison of two alignments, given what each alignment is made of. */
  lemma ExactAlignedAgrees<V>(params: seq<string>, p: Aligned<V -> bool>, c: Aligned<V>,
                              pbs: seq<Binding<V -> bool>>, cbs: seq<Binding<V>>,
                              pa: seq<V -> bool>, ca: seq<V>, pk: map<string, V -> bool>, ck: map<string, V>)
    requires Describes(params, p.named, pbs) && Describes(params, c.named, cbs)
    requires TailOf(p.extraArgs, pa, |params|) && TailOf(c.extraArgs, ca, |params|)
    requires p.extraKwargs == Outside(pk, params) && c.extraKwargs == Outside(ck, params)
    ensures ExactAligned(p, c) <==>
      && ExactNamed(pbs, cbs)
      && (|ca| > |params| || |pa| > |params| ==> |ca| == |pa|)
      && (forall i | |params| <= i < |ca| && i < |pa| :: pa[i](ca[i]))
      && Outside(ck, params).Keys == Outside(pk, params).Keys
      && (forall k | k in ck && k !in params && k in pk :: pk[k](ck[k]))
  {
    ExactNamedAgrees(params, p.named, c.named, pbs, cbs);
    ExactExtrasAgree(|params|, pa, ca, p.extraArgs, c.extraArgs);
    ExactKwargsAgree(params, pk, ck, p.extraKwargs, c.extraKwargs);
  }

  /** Partial comparison of two alignments, given what each alignment is made of. */
  lemma PartialAlignedAgrees<V>(params: seq<string>, p: Aligned<V -> bool>, c: Aligned<V>,
                                pbs: seq<Binding<V -> bool>>, cbs: seq<Binding<V>>,
                                pa: seq<V -> bool>, ca: seq<V>, pk: map<string, V -> bool>, ck: map<string, V>)
    requires Describes(params, p.named, pbs) && Describes(params, c.named, cbs)
    requires TailOf(p.extraArgs, pa, |params|) && TailOf(c.extraArgs, ca, |params|)
    requires p.extraKwargs == Outside(pk, params) && c.extraKwargs == Outside(ck, params)
    ensures PartialAligned(p, c) <==>
      && PartialNamed(pbs, cbs)
      && (|pa| <= |params| || |pa| <= |ca|)
      && (forall i | |params| <= i < |pa| && i < |ca| :: pa[i](ca[i]))
      && (forall k | k in pk && k !in params :: k in ck && pk[k](ck[k]))
  {
    PartialNamedAgrees(params, p.named, c.named, pbs, cbs);
    PartialExtrasAgree(|params|, pa, ca, p.extraArgs, c.extraArgs);
  }

  /** With distinct parameter names, exact match is exactly its reference reading. */
  lemma ExactMatchIsReference<V>(spec: ArgSpec<V>, pat: Pattern<V>, call: Invocation<V>)
    requires Distinct(spec.params)
    ensures ExactMatch(spec, pat, call) <==> ExactReference(spec, pat, call)
  {
    var p, c := AlignPattern(spec, pat), AlignCall(spec, call);
    AlignBoth(spec, pat, call);
    ExactAlignedAgrees(spec.params, p, c, PatternBindings(spec, pat), CallBindings(spec, call),
                       pat.args, call.args, pat.kwargs, call.kwargs);
  }

  /** With distinct parameter names, partial match is exactly its reference reading. */
  lemma PartialMatchIsReference<V>(spec: ArgSpec<V>, pat: Pattern<V>, call: Invocation<V>)
    requires Distinct(spec.params)
    ensures PartialMatch(spec, pat, call) <==> PartialReference(spec, pat, call)
  {
    var p, c := AlignPattern(spec, pat), AlignCall(spec, call);
    AlignBoth(spec, pat, call);
    PartialAlignedAgrees(spec.params, p, c, PatternBindings(spec, pat), CallBindings(spec, call),
                         pat.args, call.args, pat.kwargs, call.kwargs);
  }
}

=== FILE: matchlaws.dfy ===
/**
 Laws of the two matchers: how they treat an opaque signature, a pattern
 built from the call's own arguments, a stronger pattern, and what the
 default seed as written in the matchers changes.
 */
module MatchLaws {
  import opened Wrappers
  import opened Collections
  import opened ArgSpecs
  import opened Alignment
  import opened Predicates
  import opened Matching

  /** With the opaque descriptor every argument is surplus on both sides. */
  lemma OpaqueAlignment<V>(pat: Pattern<V>, call: Invocation<V>)
    ensures AlignCall(OpaqueSpec(), call) == Aligned(map[], call.args, call.kwargs)
    ensures AlignPattern(OpaqueSpec(), pat) == Aligned(map[], pat.args, pat.kwargs)
  {
    assert DefaultSeed(OpaqueSpec<V>()) == map[];
    AlignOpaque(call.args, call.kwargs);
    AlignOpaque(pat.args, pat.kwargs);
  }

  /**
   Exact match against an opaque callable: the same number of positional
   arguments, the same keyword names, and every predicate accepting.
   */
  lemma OpaqueExactMatch<V>(pat: Pattern<V>, call: Invocation<V>)
    ensures ExactMatch(OpaqueSpec(), pat, call) <==>
      && |pat.args| == |call.args|
      && pat.kwargs.Keys == call.kwargs.Keys
      && (forall i :: 0 <= i < |call.args| ==> pat.args[i](call.args[i]))
      && (forall k :: k in call.kwargs ==> pat.kwargs[k](call.kwargs[k]))
  {
    OpaqueAlignment(pat, call);
  }

  /**
   Partial match against an opaque callable: the call has at least the
   pattern's positional arguments and keyword names, and the pattern's
   predicates accept; surplus call arguments are ignored.
   */
  lemma OpaquePartialMatch<V>(pat: Pattern<V>, call: Invocation<V>)
    ensures PartialMatch(OpaqueSpec(), pat, call) <==>
      && |pat.args| <= |call.args|
      && pat.kwargs.Keys <= call.kwargs.Keys
      && (forall i :: 0 <= i < |pat.args| ==> pat.args[i](call.args[i]))
      && (forall k :: k in pat.kwargs ==> pat.kwargs[k](call.kwargs[k]))
  {
    OpaqueAlignment(pat, call);
  }

  /** The pattern that asks for each of the call's own arguments by equality. */
  function EqualPattern<V(==, !new)>(call: Invocation<V>): (pat: Pattern<V>)
    ensures |pat.args| == |call.args| && pat.kwargs.Keys == call.kwargs.Keys
    ensures forall i :: 0 <= i < |call.args| ==> pat.args[i](call.args[i])
    ensures forall k :: k in call.kwargs ==> pat.kwargs[k](call.kwargs[k])
  {
    Pattern(
      seq(|call.args|, i requires 0 <= i < |call.args| => EqualTo(call.args[i])),
      map k | k in call.kwargs :: EqualTo(call.kwargs[k]))
  }

  /** A parameter carries a default exactly when it is one of the last `|defaults|`. */
  lemma DefaultSeedHas<V>(spec: ArgSpec<V>, i: nat)
    requires Distinct(spec.params) && i < |spec.params|
    ensures spec.params[i] in DefaultSeed(spec) <==> i >= DefaultedFrom(spec)
  {
    if spec.params[i] in DefaultSeed(spec) {
      var j :| 0 <= j < |spec.params| && j >= DefaultedFrom(spec) && spec.params[j] == spec.params[i];
    }
  }

  /** Bindings of the equality pattern mirror the bindings of the call it was built from. */
  lemma EqualPatternBindings<V(!new)>(spec: ArgSpec<V>, call: Invocation<V>, i: nat)
    requires Distinct(spec.params) && i < |spec.params|
    ensures var pb, cb := PatternBindings(spec, EqualPattern(call))[i], CallBindings(spec, call)[i];
      && (!pb.Unbound? <==> i < |call.args| || spec.params[i] in call.kwargs)
      && (!cb.Unbound? <==> i < |call.args| || spec.params[i] in call.kwargs || i >= DefaultedFrom(spec))
      && (!pb.Unbound? ==> !cb.Unbound? && pb.value(cb.value))
  {
    DefaultSeedHas(spec, i);
  }

  /** A call always matches, partially, the pattern built from its own arguments. */
  lemma PartialMatchesItself<V(!new)>(spec: ArgSpec<V>, call: Invocation<V>)
    requires Distinct(spec.params)
    ensures PartialMatch(spec, EqualPattern(call), call)
  {
    var pat := EqualPattern(call);
    forall i | 0 <= i < |spec.params| ensures
      var pb, cb := PatternBindings(spec, pat)[i], CallBindings(spec, call)[i];
      !pb.Unbound? ==> !cb.Unbound? && pb.value(cb.value)
    {
      EqualPatternBindings(spec, call, i);
    }
    PartialMatchIsReference(spec, pat, call);
  }

  /** The named part of the reference reading, for the equality pattern. */
  lemma EqualPatternExactNamed<V(!new)>(spec: ArgSpec<V>, call: Invocation<V>)
    requires Distinct(spec.params)
    ensures ExactNamed(PatternBindings(spec, EqualPattern(call)), CallBindings(spec, call)) <==>
      forall i :: DefaultedFrom(spec) <= i < |spec.params| && 0 <= i ==>
        i < |call.args| || spec.params[i] in call.kwargs
  {
    var pbs, cbs := PatternBindings(spec, EqualPattern(call)), CallBindings(spec, call);
    forall i | 0 <= i < |spec.params| ensures
      && (!pbs[i].Unbound? <==> i < |call.args| || spec.params[i] in call.kwargs)
      && (!cbs[i].Unbound? <==> i < |call.args| || spec.params[i] in call.kwargs || i >= DefaultedFrom(spec))
      && (!pbs[i].Unbound? ==> !cbs[i].Unbound? && pbs[i].value(cbs[i].value))
    {
      EqualPatternBindings(spec, call, i);
    }
  }

  /**
   A call matches exactly the pattern built from its own arguments if and
   only if it supplies, positionally or by keyword, every parameter that has a
   default: the call side is seeded with defaults, the pattern side is not.
   */
  lemma ExactMatchesItselfIff<V(!new)>(spec: ArgSpec<V>, call: Invocation<V>)
    requires Distinct(spec.params)
    ensures ExactMatch(spec, EqualPattern(call), call) <==>
      forall i :: DefaultedFrom(spec) <= i < |spec.params| && 0 <= i ==>
        i < |call.args| || spec.params[i] in call.kwargs
  {
    var pat := EqualPattern(call);
    EqualPatternExactNamed(spec, call);
    assert Outside(call.kwargs, spec.params).Keys == Outside(pat.kwargs, spec.params).Keys;
    ExactMatchIsReference(spec, pat, call);
  }

  /** `f` accepts no value that `g` rejects. */
  ghost predicate Stronger<V(!new)>(f: V -> bool, g: V -> bool) {
    forall v :: f(v) ==> g(v)
  }

  /**
   `strong` constrains at least the arguments `weak` does, each with a
   predicate at least as strict.
   */
  ghost predicate Refines<V(!new)>(spec: ArgSpec<V>, strong: Pattern<V>, weak: Pattern<V>) {
    var n := |spec.params|;
    var sb, wb := PatternBindings(spec, strong), PatternBindings(spec, weak);
    && (forall i | 0 <= i < n && !wb[i].Unbound? :: !sb[i].Unbound? && Stronger(sb[i].value, wb[i].value))
    && (|weak.args| <= n || |weak.args| <= |strong.args|)
    && (forall i | n <= i < |weak.args| :: Stronger(strong.args[i], weak.args[i]))
    && (forall k | k in weak.kwargs && k !in spec.params :: k in strong.kwargs && Stronger(strong.kwargs[k], weak.kwargs[k]))
  }

  /** The reference reading of partial match is monotonic under `Refines`. */
  lemma PartialReferenceMonotone<V(!new)>(spec: ArgSpec<V>, strong: Pattern<V>, weak: Pattern<V>, call: Invocation<V>)
    requires Refines(spec, strong, weak)
    requires PartialReference(spec, strong, call)
    ensures PartialReference(spec, weak, call)
  {
    var n := |spec.params|;
    var sb, wb, cb := PatternBindings(spec, strong), PatternBindings(spec, weak), CallBindings(spec, call);
    forall i | 0 <= i < n && !wb[i].Unbound? ensures !cb[i].Unbound? && wb[i].value(cb[i].value) {
      assert Stronger(sb[i].value, wb[i].value);
      assert sb[i].value(cb[i].value);
    }
    forall i | n <= i < |weak.args| && i < |call.args| ensures weak.args[i](call.args[i]) {
      assert Stronger(strong.args[i], weak.args[i]);
      assert strong.args[i](call.args[i]);
    }
    forall k | k in weak.kwargs && k !in spec.params ensures k in call.kwargs && weak.kwargs[k](call.kwargs[k]) {
      assert k in strong.kwargs && Stronger(strong.kwargs[k], weak.kwargs[k]);
    }
  }

  /** Partial match is monotonic: a stricter pattern matches no call a looser one misses. */
  lemma PartialMonotone<V(!new)>(spec: ArgSpec<V>, strong: Pattern<V>, weak: Pattern<V>, call: Invocation<V>)
    requires Distinct(spec.params)
    requires Refines(spec, strong, weak)
    ensures PartialMatch(spec, strong, call) ==> PartialMatch(spec, weak, call)
  {
    PartialMatchIsReference(spec, strong, call);
    PartialMatchIsReference(spec, weak, call);
    if PartialReference(spec, strong, call) {
      PartialReferenceMonotone(spec, strong, weak, call);
    }
  }

  /** Exact match computed with the default seed exactly as the matchers write it. */
  function ExactMatchAsWritten<V>(spec: ArgSpec<V>, pat: Pattern<V>, call: Invocation<V>): (r: bool)
    ensures r ==> (|call.args| > |spec.params| || |pat.args| > |spec.params| ==> |call.args| == |pat.args|)
    ensures r ==> Outside(call.kwargs, spec.params).Keys == Outside(pat.kwargs, spec.params).Keys
  {
    ExactAligned(AlignPattern(spec, pat), Align(spec.params, SourceSeed(spec), call.args, call.kwargs))
  }

  /** Partial match computed with the default seed exactly as the matchers write it. */
  function PartialMatchAsWritten<V>(spec: ArgSpec<V>, pat: Pattern<V>, call: Invocation<V>): (r: bool)
    ensures r ==> (|pat.args| <= |spec.params| || |pat.args| <= |call.args|)
    ensures r ==> forall k :: k in pat.kwargs && k !in spec.params ==> k in call.kwargs
  {
    PartialAligned(AlignPattern(spec, pat), Align(spec.params, SourceSeed(spec), call.args, call.kwargs))
  }

  /** When the signature has at most two parameters more than defaults, the written matchers are the intended ones. */
  lemma AsWrittenAgrees<V>(spec: ArgSpec<V>, pat: Pattern<V>, call: Invocation<V>)
    requires |spec.params| <= |spec.defaults| + 2
    ensures ExactMatchAsWritten(spec, pat, call) == ExactMatch(spec, pat, call)
    ensures PartialMatchAsWritten(spec, pat, call) == PartialMatch(spec, pat, call)
  {
    SourceSeedAgrees(spec);
  }

  /** The parameter names of `def f(a, b, c, d=4)`. */
  const FourParams := ["a", "b", "c", "d"]

  /** An alignment whose arguments all fit the declared names has no surplus positionals. */
  lemma AlignWithin<T>(params: seq<string>, seed: map<string, T>, args: seq<T>, kwargs: map<string, T>)
    requires KeysIn(seed, params) && |args| <= |params|
    ensures var a := Align(params, seed, args, kwargs);
      a == Aligned(a.named, [], Outside(kwargs, params))
  {
  }

  /** `f(1, 2, 3)` with the seed as written: `d` is left unbound. */
  lemma WrittenCall()
    ensures Align(FourParams, map["c" := 4], [1, 2, 3], map[]) == Aligned(map["a" := 1, "b" := 2, "c" := 3], [], map[])
  {
    var seed, args, kwargs: map<string, int> := map["c" := 4], [1, 2, 3], map[];
    var named := Align(FourParams, seed, args, kwargs).named;
    AlignNamedBinding(FourParams, seed, args, kwargs, 0);
    AlignNamedBinding(FourParams, seed, args, kwargs, 1);
    AlignNamedBinding(FourParams, seed, args, kwargs, 2);
    AlignNamedBinding(FourParams, seed, args, kwargs, 3);
    assert named.Keys == {"a", "b", "c"};
    AlignWithin(FourParams, seed, args, kwargs);
  }

  /** `f(1, 2, 3)` with the intended seed: `d` takes its default. */
  lemma FixedCall()
    ensures Align(FourParams, map["d" := 4], [1, 2, 3], map[]) == Aligned(map["a" := 1, "b" := 2, "c" := 3, "d" := 4], [], map[])
  {
    var seed, args, kwargs: map<string, int> := map["d" := 4], [1, 2, 3], map[];
    var named := Align(FourParams, seed, args, kwargs).named;
    assert Distinct(FourParams);
    AlignNamedBinding(FourParams, seed, args, kwargs, 0);
    AlignNamedBinding(FourParams, seed, args, kwargs, 1);
    AlignNamedBinding(FourParams, seed, args, kwargs, 2);
    AlignNamedBinding(FourParams, seed, args, kwargs, 3);
    assert named.Keys == {"a", "b", "c", "d"};
    AlignWithin(FourParams, seed, args, kwargs);
  }

  /** Three positional predicates bind `a`, `b` and `c` on the pattern side. */
  lemma ThreePattern(q: int -> bool)
    ensures Align<int -> bool>(FourParams, map[], [q, q, q], map[]) == Aligned<int -> bool>.Aligned(map["a" := q, "b" := q, "c" := q], [], map[])
  {
    var seed, args, kwargs: map<string, int -> bool> := map[], [q, q, q], map[];
    var named := Align(FourParams, seed, args, kwargs).named;
    AlignNamedBinding(FourParams, seed, args, kwargs, 0);
    AlignNamedBinding(FourParams, seed, args, kwargs, 1);
    AlignNamedBinding(FourParams, seed, args, kwargs, 2);
    AlignNamedBinding(FourParams, seed, args, kwargs, 3);
    assert named.Keys == {"a", "b", "c"};
    AlignWithin(FourParams, seed, args, kwargs);
  }

  /** A keyword predicate for `d` binds only `d` on the pattern side. */
  lemma AskDPattern(q: int -> bool)
    ensures Align<int -> bool>(FourParams, map[], [], map["d" := q]) == Aligned<int -> bool>.Aligned(map["d" := q], [], map[])
  {
    var seed, args, kwargs: map<string, int -> bool> := map[], [], map["d" := q];
    var named := Align(FourParams, seed, args, kwargs).named;
    AlignNamedBinding(FourParams, seed, args, kwargs, 0);
    AlignNamedBinding(FourParams, seed, args, kwargs, 1);
    AlignNamedBinding(FourParams, seed, args, kwargs, 2);
    AlignNamedBinding(FourParams, seed, args, kwargs, 3);
    assert named.Keys == {"d"};
    AlignWithin(FourParams, seed, args, kwargs);
    assert Outside(kwargs, FourParams) == map[];
  }

  /** The signature, call and patterns of the counterexample below. */
  function FourSpec(): ArgSpec<int> { ArgSpec(FourParams, None, None, [4]) }
  function OneTwoThree(): Invocation<int> { Invocation([1, 2, 3], map[]) }
  function ThreeAnything(): Pattern<int> { Pattern([Anything, Anything, Anything], map[]) }
  function AskD(): Pattern<int> { Pattern([], map["d" := EqualTo(4)]) }

  /** As written, three wildcards match `f(1, 2, 3)` exactly, although `d` was not passed... */
  lemma WrittenExactMatchesThree()
    ensures ExactMatchAsWritten(FourSpec(), ThreeAnything(), OneTwoThree())
  {
    SourceSeedCounterexample();
    WrittenCall();
    ThreePattern(Anything);
    var p := Aligned<int -> bool>.Aligned(map["a" := Anything, "b" := Anything, "c" := Anything], [], map[]);
    var c := Aligned(map["a" := 1, "b" := 2, "c" := 3], [], map[]);
    assert AlignPattern(FourSpec(), ThreeAnything()) == p;
    assert Align(FourSpec().params, SourceSeed(FourSpec()), OneTwoThree().args, OneTwoThree().kwargs) == c;
    ThreeWildcardsAccept();
  }

  lemma ThreeWildcardsAccept()
    ensures ExactAligned(Aligned<int -> bool>.Aligned(map["a" := Anything, "b" := Anything, "c" := Anything], [], map[]),
                         Aligned(map["a" := 1, "b" := 2, "c" := 3], [], map[]))
  {
    var pn: map<string, int -> bool> := map["a" := Anything, "b" := Anything, "c" := Anything];
    var cn: map<string, int> := map["a" := 1, "b" := 2, "c" := 3];
    assert pn.Keys == cn.Keys;
    forall k | k in cn ensures pn[k](cn[k]) {
      assert pn[k] == Anything;
    }
    assert AllPairsAccept<int>([], []);
  }

  /** ...while with the intended seed the defaulted `d` is bound on the call side only. */
  lemma FixedExactRejectsThree()
    ensures !ExactMatch(FourSpec(), ThreeAnything(), OneTwoThree())
  {
    SourceSeedCounterexample();
    FixedCall();
    ThreePattern(Anything);
    var p := Aligned<int -> bool>.Aligned(map["a" := Anything, "b" := Anything, "c" := Anything], [], map[]);
    var c := Aligned(map["a" := 1, "b" := 2, "c" := 3, "d" := 4], [], map[]);
    assert AlignPattern(FourSpec(), ThreeAnything()) == p;
    assert AlignCall(FourSpec(), OneTwoThree()) == c;
    DefaultedNameRejects();
  }

  lemma DefaultedNameRejects()
    ensures !ExactAligned(Aligned<int -> bool>.Aligned(map["a" := Anything, "b" := Anything, "c" := Anything], [], map[]),
                          Aligned(map["a" := 1, "b" := 2, "c" := 3, "d" := 4], [], map[]))
  {
    var pn: map<string, int -> bool> := map["a" := Anything, "b" := Anything, "c" := Anything];
    var cn: map<string, int> := map["a" := 1, "b" := 2, "c" := 3, "d" := 4];
    assert "d" in cn.Keys && "d" !in pn.Keys;
  }

  /** As written, a pattern asking for `d == 4` misses `f(1, 2, 3)`... */
  lemma WrittenPartialMissesD()
    ensures !PartialMatchAsWritten(FourSpec(), AskD(), OneTwoThree())
  {
    SourceSeedCounterexample();
    WrittenCall();
    AskDPattern(EqualTo(4));
    assert "d" in AlignPattern(FourSpec(), AskD()).named;
  }

  /** ...while with the intended seed `d` carries its default 4 and the pattern matches. */
  lemma FixedPartialMatchesD()
    ensures PartialMatch(FourSpec(), AskD(), OneTwoThree())
  {
    SourceSeedCounterexample();
    FixedCall();
    AskDPattern(EqualTo(4));
  }

  /**
   `def f(a, b, c, d=4)` called as `f(1, 2, 3)`: the written seed loses `d`,
   so a three-predicate pattern matches exactly where it should not, and a
   pattern that asks for `d` misses partially where it should match.
   */
  lemma AsWrittenCounterexample()
    ensures && ExactMatchAsWritten(FourSpec(), ThreeAnything(), OneTwoThree())
            && !ExactMatch(FourSpec(), ThreeAnything(), OneTwoThree())
            && !PartialMatchAsWritten(FourSpec(), AskD(), OneTwoThree())
            && PartialMatch(FourSpec(), AskD(), OneTwoThree())
  {
    WrittenExactMatchesThree();
    FixedExactRejectsThree();
    WrittenPartialMissesD();
    FixedPartialMatchesD();
  }
}

=== FILE: output.dfy ===
/**
 ANSI terminal styling: a text wrapped between a code that switches a style
 on and a code that switches it off again.
 */
module Output {
  import opened Wrappers

  const White := "\U{1B}[37m"
  const Cyan := "\U{1B}[36m"
  const Purple := "\U{1B}[35m"
  const Blue := "\U{1B}[34m"
  const Yellow := "\U{1B}[33m"
  const Green := "\U{1B}[32m"
  const Red := "\U{1B}[31m"
  const Black := "\U{1B}[30m"
  const NormalColor := "\U{1B}[39m"
  const Reset := "\U{1B}[0m"
  const Bold := "\U{1B}[1m"
  /** Select Graphic Rendition 2, "faint": the half-bright code. */
  const HalfBright := "\U{1B}[2m"
  /** The half-bright code as the constants table writes it: the bold code again. */
  const HalfBrightAsWritten := "\U{1B}[1m"
  const NormalBright := "\U{1B}[22m"
  const Underline := "\U{1B}[4m"
  const UnderlineOff := "\U{1B}[24m"
  const Blink := "\U{1B}[5m"
  const BlinkOff := "\U{1B}[25m"

  /** `text` between the code that opens a style and the code that closes it. */
  function Format(code: string, text: string, terminator: string): (r: string)
    ensures |r| == |code| + |text| + |terminator|
    ensures r[..|code|] == code
    ensures r[|code|..|code| + |text|] == text
    ensures r[|code| + |text|..] == terminator
  {
    code + text + terminator
  }

  /** The formatter with its default terminator, which resets every attribute. */
  function FormatReset(code: string, text: string): (r: string)
    ensures |r| == |code| + |text| + |Reset|
    ensures r[..|code|] == code && r[|r| - |Reset|..] == Reset
  {
    Format(code, text, Reset)
  }

  /** Recovers the text from a string that opens with `code` and closes with `terminator`. */
  function Unwrap(code: string, terminator: string, s: string): (r: Option<string>)
    ensures r.Some? ==> Format(code, r.value, terminator) == s
  {
    if |s| >= |code| + |terminator| && s[..|code|] == code && s[|s| - |terminator|..] == terminator then
      var text := s[|code|..|s| - |terminator|];
      assert s == s[..|code|] + text + s[|s| - |terminator|..];
      Some(text)
    else None
  }

  /** Unwrapping a formatted text gives the text back. */
  lemma UnwrapFormat(code: string, text: string, terminator: string)
    ensures Unwrap(code, terminator, Format(code, text, terminator)) == Some(text)
  {
    var s := Format(code, text, terminator);
    assert s[|code|..|s| - |terminator|] == text;
  }

  /** With the same codes, different texts give different formatted strings. */
  lemma FormatInjective(code: string, a: string, b: string, terminator: string)
    ensures Format(code, a, terminator) == Format(code, b, terminator) <==> a == b
  {
    if Format(code, a, terminator) == Format(code, b, terminator) {
      UnwrapFormat(code, a, terminator);
      UnwrapFormat(code, b, terminator);
    }
  }

  /** The ready-made styles. */
  datatype Style =
    | PurpleText | GreenText | RedText | YellowText | BlueText | CyanText | BlackText | WhiteText
    | BoldText | HalfBrightText | UnderlineText | BlinkingText

  /** The code a style opens with. */
  function OnCode(style: Style): string {
    match style
    case PurpleText => Purple
    case GreenText => Green
    case RedText => Red
    case YellowText => Yellow
    case BlueText => Blue
    case CyanText => Cyan
    case BlackText => Black
    case WhiteText => White
    case BoldText => Bold
    case HalfBrightText => HalfBright
    case UnderlineText => Underline
    case BlinkingText => Blink
  }

  predicate IsColour(style: Style) {
    !(style.BoldText? || style.HalfBrightText? || style.UnderlineText? || style.BlinkingText?)
  }

  /** The code a style closes with: a colour restores the normal colour, an attribute switches itself off. */
  function OffCode(style: Style): (off: string)
    ensures IsColour(style) ==> off == NormalColor
    ensures style.BoldText? || style.HalfBrightText? ==> off == NormalBright
    ensures style.UnderlineText? ==> off == UnderlineOff
    ensures style.BlinkingText? ==> off == BlinkOff
  {
    match style
    case BoldText | HalfBrightText => NormalBright
    case UnderlineText => UnderlineOff
    case BlinkingText => BlinkOff
    case _ => NormalColor
  }

  /** `purple(text)`, `bold(text)` and the rest. */
  function Styled(style: Style, text: string): (r: string)
    ensures Unwrap(OnCode(style), OffCode(style), r) == Some(text)
  {
    UnwrapFormat(OnCode(style), text, OffCode(style));
    Format(OnCode(style), text, OffCode(style))
  }

  /** Different styles open with different codes, so no two styles render a text alike. */
  lemma StylesDistinct(s: Style, t: Style, text: string)
    requires s != t
    ensures Styled(s, text) != Styled(t, text)
  {
    assert Styled(s, text)[..4] == OnCode(s)[..4];
    assert Styled(t, text)[..4] == OnCode(t)[..4];
    assert |OnCode(s)| >= 4 && |OnCode(t)| >= 4;
    if |OnCode(s)| == |OnCode(t)| {
      assert Styled(s, text)[..|OnCode(s)|] == OnCode(s);
      assert Styled(t, text)[..|OnCode(t)|] == OnCode(t);
    }
  }

  /** Half-bright as the constants table writes it renders every text exactly as bold does. */
  lemma HalfBrightAsWrittenIsBold(text: string)
    ensures Format(HalfBrightAsWritten, text, NormalBright) == Styled(BoldText, text)
  {
  }
}

=== FILE: predicates.dfy ===
/**
 The predicate builders a test passes as pattern arguments. A predicate is a
 total one-argument function to `bool`.
 */
module Predicates {

  /** Accepts every value. */
  predicate Anything<V>(v: V) {
    true
  }

  /** Accepts exactly the values equal to `element`. */
  function EqualTo<V(==, !new)>(element: V): (p: V -> bool)
    ensures forall v :: p(v) <==> v == element
  {
    v => v == element
  }

  /** Accepts exactly the values that occur in `elements`. */
  function AnyOf<V(==, !new)>(elements: seq<V>): (p: V -> bool)
    ensures forall v :: p(v) <==> exists i :: 0 <= i < |elements| && elements[i] == v
  {
    v => v in elements
  }

  /** `any_of` over one element is `equal_to` that element. */
  lemma AnyOfSingleton<V(!new)>(element: V, v: V)
    ensures AnyOf([element])(v) <==> EqualTo(element)(v)
  {
  }

  /** `any_of` over two joined sequences accepts what either part accepts. */
  lemma AnyOfConcat<V(!new)>(a: seq<V>, b: seq<V>, v: V)
    ensures AnyOf(a + b)(v) <==> AnyOf(a)(v) || AnyOf(b)(v)
  {
  }
}

=== FILE: quantifiers.dfy ===
/**
 Quantifiers over a spy's history. A quantifier is handed the number of
 recorded calls that matched and the whole history, and says whether the
 expectation holds.
 */
module Quantifiers {

  /** `(number of matching records, all records) -> verdict`. */
  type Quantifier<!T> = (nat, seq<T>) -> bool

  /** Holds when exactly `n` records matched; the history itself is ignored. */
  function Times<T(!new)>(n: int): (q: Quantifier<T>)
    ensures forall matched: nat, all: seq<T> :: q(matched, all) <==> matched == n
  {
    (matched: nat, all: seq<T>) => matched == n
  }

  /** Holds when at least `n` records matched. */
  function AtLeastTimes<T(!new)>(n: int): (q: Quantifier<T>)
    ensures forall matched: nat, all: seq<T> :: q(matched, all) <==> matched >= n
  {
    (matched: nat, all: seq<T>) => matched >= n
  }

  /** `times(1)`. */
  function Once<T(!new)>(): (q: Quantifier<T>)
    ensures forall matched: nat, all: seq<T> :: q(matched, all) <==> matched == 1
  {
    Times(1)
  }

  /** `times(0)`. */
  function Never<T(!new)>(): (q: Quantifier<T>)
    ensures forall matched: nat, all: seq<T> :: q(matched, all) <==> matched == 0
  {
    Times(0)
  }

  /** `at_least_times(1)`. */
  function AtLeastOnce<T(!new)>(): (q: Quantifier<T>)
    ensures forall matched: nat, all: seq<T> :: q(matched, all) <==> matched >= 1
  {
    AtLeastTimes(1)
  }

  /** Holds when every record matched; in particular on an empty history with no match. */
  function Always<T(!new)>(): (q: Quantifier<T>)
    ensures forall matched: nat, all: seq<T> :: q(matched, all) <==> matched == |all|
  {
    (matched: nat, all: seq<T>) => matched == |all|
  }
}

=== FILE: spy.dfy ===
/**
 The spy: a wrapper that forwards each call to its target and keeps the
 history of the calls that returned normally, together with the check and
 assertion API that counts matching records and hands the count to a
 quantifier. The spy is a value; every operation that changes it returns the
 new spy.
 */
module Spies {
  import opened Wrappers
  import opened Collections
  import opened ArgSpecs
  import opened Matching
  import opened Quantifiers
  import opened Predicates

  datatype Spy<V> = Spy(
    spec: ArgSpec<V>,
    isMethod: bool,
    verbose: bool,
    invocations: seq<Invocation<V>>)

  /** What the target did with a call: returned a value or raised an exception. */
  datatype Outcome<R, E> = Returned(value: R) | Raised(error: E)

  /** Which of the two matchers a check uses. */
  datatype Mode = Exact | Partial

  /** The outcome of an assertion; a verbose spy attaches its whole history to the error. */
  datatype AssertionResult<V> = Passed | AssertionError(dump: Option<seq<Invocation<V>>>)

  /**
   A fresh spy: empty history, and the descriptor chosen from the target's
   introspected signature (passed in, since introspection is outside the model).
   */
  function NewSpy<V>(sig: ArgSpec<V>, isMethod: bool, isNotInspectable: bool, verbose: bool): (s: Spy<V>)
    ensures s.invocations == [] && s.isMethod == isMethod && s.verbose == verbose
    ensures isNotInspectable ==> s.spec.params == [] && s.spec.defaults == []
    ensures !isNotInspectable ==> s.spec.defaults == sig.defaults
    ensures !isNotInspectable && !isMethod ==> s.spec == sig
    ensures s.spec == Descriptor(sig, isMethod, isNotInspectable)
  {
    Spy(Descriptor(sig, isMethod, isNotInspectable), isMethod, verbose, [])
  }

  /** The record a returning call leaves: a method spy drops the receiver. */
  function Recorded<V>(s: Spy<V>, args: seq<V>, kwargs: map<string, V>): (inv: Invocation<V>)
    ensures inv.kwargs == kwargs
    ensures !s.isMethod ==> inv.args == args
    ensures s.isMethod ==> |inv.args| == (if |args| == 0 then 0 else |args| - 1)
    ensures s.isMethod ==> forall i :: 0 <= i < |inv.args| ==> inv.args[i] == args[i + 1]
  {
    Invocation(if s.isMethod then Drop(args, 1) else args, kwargs)
  }

  /** Everything about the spy except its history is left as it was. */
  ghost predicate SameSettings<V>(s: Spy<V>, t: Spy<V>) {
    s.spec == t.spec && s.isMethod == t.isMethod && s.verbose == t.verbose
  }

  /**
   Calls the target. The target's outcome is passed through unchanged; only a
   call that returned is appended to the history, and nothing else changes.
   */
  function Call<V, R, E>(s: Spy<V>, target: (seq<V>, map<string, V>) -> Outcome<R, E>,
                         args: seq<V>, kwargs: map<string, V>): (r: (Spy<V>, Outcome<R, E>))
    ensures r.1 == target(args, kwargs)
    ensures SameSettings(s, r.0)
    ensures r.1.Raised? ==> r.0.invocations == s.invocations
    ensures r.1.Returned? ==>
      && |r.0.invocations| == |s.invocations| + 1
      && r.0.invocations[..|s.invocations|] == s.invocations
      && r.0.invocations[|s.invocations|] == Recorded(s, args, kwargs)
  {
    var outcome := target(args, kwargs);
    match outcome
    case Returned(_) => (s.(invocations := s.invocations + [Recorded(s, args, kwargs)]), outcome)
    case Raised(_) => (s, outcome)
  }

  /** The number of recorded calls. */
  function NumInvocations<V>(s: Spy<V>): (n: nat)
    ensures n == |s.invocations|
  {
    |s.invocations|
  }

  /** Forgets the history and reports success. */
  function Clear<V>(s: Spy<V>): (r: (Spy<V>, bool))
    ensures r.1
    ensures SameSettings(s, r.0) && r.0.invocations == []
  {
    (s.(invocations := []), true)
  }

  /** A call that returns adds one to the count of invocations; one that raises adds nothing. */
  lemma NumInvocationsAfterCall<V, R, E>(s: Spy<V>, target: (seq<V>, map<string, V>) -> Outcome<R, E>,
                                          args: seq<V>, kwargs: map<string, V>)
    ensures NumInvocations(Call(s, target, args, kwargs).0) ==
      NumInvocations(s) + (if target(args, kwargs).Returned? then 1 else 0)
  {
  }

  /**
   One recorded call, as the matchers see it. With distinct parameter names
   the verdict is the parameter-by-parameter reference reading, and an exact
   match is always a partial one.
   */
  function Matches<V>(mode: Mode, spec: ArgSpec<V>, pat: Pattern<V>, inv: Invocation<V>): (r: bool)
    ensures mode.Exact? && r ==> PartialMatch(spec, pat, inv)
    ensures Distinct(spec.params) && mode.Exact? ==> (r <==> ExactReference(spec, pat, inv))
    ensures Distinct(spec.params) && mode.Partial? ==> (r <==> PartialReference(spec, pat, inv))
  {
    ExactImpliesPartial(spec, pat, inv);
    MatchersAreReferences(spec, pat, inv);
    match mode
    case Exact => ExactMatch(spec, pat, inv)
    case Partial => PartialMatch(spec, pat, inv)
  }

  /** Both matchers agree with their reference readings when the parameter names are distinct. */
  lemma MatchersAreReferences<V>(spec: ArgSpec<V>, pat: Pattern<V>, inv: Invocation<V>)
    ensures Distinct(spec.params) ==> (ExactMatch(spec, pat, inv) <==> ExactReference(spec, pat, inv))
    ensures Distinct(spec.params) ==> (PartialMatch(spec, pat, inv) <==> PartialReference(spec, pat, inv))
  {
    if Distinct(spec.params) {
      ExactMatchIsReference(spec, pat, inv);
      PartialMatchIsReference(spec, pat, inv);
    }
  }

  /** The positions of the recorded calls that match the pattern. */
  function MatchingRecords<V>(s: Spy<V>, mode: Mode, pat: Pattern<V>): set<int> {
    set i | 0 <= i < |s.invocations| && Matches(mode, s.spec, pat, s.invocations[i])
  }

  /** How many recorded calls match the pattern: the length of the filtered list. */
  function MatchCount<V>(s: Spy<V>, mode: Mode, pat: Pattern<V>): (n: nat)
    ensures n == |MatchingRecords(s, mode, pat)|
    ensures n <= |s.invocations|
  {
    var p := (inv: Invocation<V>) => Matches(mode, s.spec, pat, inv);
    CountIsCardinality(s.invocations, p);
    assert Satisfying(s.invocations, p) == MatchingRecords(s, mode, pat);
    Count(s.invocations, p)
  }

  /**
   `check_quantified_exact_match` / `check_quantified_partial_match`: the
   quantifier judges how many recorded calls match, given the whole history.
   */
  function CheckQuantified<V(!new)>(s: Spy<V>, mode: Mode, q: Quantifier<Invocation<V>>, pat: Pattern<V>): (r: bool)
    ensures r == q(|MatchingRecords(s, mode, pat)|, s.invocations)
  {
    q(MatchCount(s, mode, pat), s.invocations)
  }

  /**
   `assert_quantified_exact_match` / `assert_quantified_partial_match`: passes
   exactly when the check holds, and otherwise fails with the history attached
   when the spy is verbose.
   */
  function AssertQuantified<V(!new)>(s: Spy<V>, mode: Mode, q: Quantifier<Invocation<V>>, pat: Pattern<V>): (r: AssertionResult<V>)
    ensures r.Passed? <==> CheckQuantified(s, mode, q, pat)
    ensures r.AssertionError? ==> (r.dump.Some? <==> s.verbose)
    ensures r.AssertionError? && r.dump.Some? ==> r.dump.value == s.invocations
  {
    if CheckQuantified(s, mode, q, pat) then Passed
    else if s.verbose then AssertionError(Some(s.invocations))
    else AssertionError(None)
  }

  /** `assert_any_*`: at least one recorded call matches. */
  function AssertAny<V(!new)>(s: Spy<V>, mode: Mode, pat: Pattern<V>): (r: AssertionResult<V>)
    ensures r.Passed? <==> exists i :: 0 <= i < |s.invocations| && Matches(mode, s.spec, pat, s.invocations[i])
  {
    CountPositive(s.invocations, (inv: Invocation<V>) => Matches(mode, s.spec, pat, inv));
    AssertQuantified(s, mode, AtLeastOnce(), pat)
  }

  /** `assert_one_*`: exactly one recorded call matches. */
  function AssertOne<V(!new)>(s: Spy<V>, mode: Mode, pat: Pattern<V>): (r: AssertionResult<V>)
    ensures r.Passed? <==>
      exists i :: 0 <= i < |s.invocations| && Matches(mode, s.spec, pat, s.invocations[i]) &&
        forall j :: 0 <= j < |s.invocations| && j != i ==> !Matches(mode, s.spec, pat, s.invocations[j])
  {
    CountOne(s.invocations, (inv: Invocation<V>) => Matches(mode, s.spec, pat, inv));
    assert CheckQuantified(s, mode, Once(), pat) <==>
      Count(s.invocations, (inv: Invocation<V>) => Matches(mode, s.spec, pat, inv)) == 1;
    AssertQuantified(s, mode, Once(), pat)
  }

  /** `never` holds exactly when no recorded call matches. */
  lemma CheckNever<V(!new)>(s: Spy<V>, mode: Mode, pat: Pattern<V>)
    ensures CheckQuantified(s, mode, Never(), pat) <==>
      forall i :: 0 <= i < |s.invocations| ==> !Matches(mode, s.spec, pat, s.invocations[i])
  {
    CountZero(s.invocations, (inv: Invocation<V>) => Matches(mode, s.spec, pat, inv));
  }

  /** `always` holds exactly when every recorded call matches (vacuously on an empty history). */
  lemma CheckAlways<V(!new)>(s: Spy<V>, mode: Mode, pat: Pattern<V>)
    ensures CheckQuantified(s, mode, Always(), pat) <==>
      forall i :: 0 <= i < |s.invocations| ==> Matches(mode, s.spec, pat, s.invocations[i])
  {
    CountAll(s.invocations, (inv: Invocation<V>) => Matches(mode, s.spec, pat, inv));
  }

  /** `times(n)` holds exactly when `n` recorded calls match. */
  lemma CheckTimes<V(!new)>(s: Spy<V>, mode: Mode, n: int, pat: Pattern<V>)
    ensures CheckQuantified(s, mode, Times(n), pat) <==> |MatchingRecords(s, mode, pat)| == n
  {
  }

  /** `at_least_times(n)` holds exactly when `n` or more recorded calls match. */
  lemma CheckAtLeastTimes<V(!new)>(s: Spy<V>, mode: Mode, n: int, pat: Pattern<V>)
    ensures CheckQuantified(s, mode, AtLeastTimes(n), pat) <==> |MatchingRecords(s, mode, pat)| >= n
  {
  }

  /** A check with `never` holds exactly when `assert_any_*` fails. */
  lemma NeverIsNotAny<V(!new)>(s: Spy<V>, mode: Mode, pat: Pattern<V>)
    ensures CheckQuantified(s, mode, Never(), pat) <==> AssertAny(s, mode, pat).AssertionError?
  {
    CheckNever(s, mode, pat);
  }

  /** `assert_one_*` passes exactly when `assert_any_*` passes and `at_least_times(2)` does not hold. */
  lemma OneIsAnyButNotTwo<V(!new)>(s: Spy<V>, mode: Mode, pat: Pattern<V>)
    ensures AssertOne(s, mode, pat).Passed? <==>
      AssertAny(s, mode, pat).Passed? && !CheckQuantified(s, mode, AtLeastTimes(2), pat)
  {
  }

  /** `always` and `never` both hold for a pattern exactly when nothing has been recorded. */
  lemma AlwaysAndNever<V(!new)>(s: Spy<V>, mode: Mode, pat: Pattern<V>)
    ensures CheckQuantified(s, mode, Always(), pat) && CheckQuantified(s, mode, Never(), pat) <==> s.invocations == []
  {
  }

  /** No more calls match exactly than match partially. */
  lemma ExactCountBelowPartial<V>(s: Spy<V>, pat: Pattern<V>)
    ensures MatchCount(s, Exact, pat) <= MatchCount(s, Partial, pat)
  {
    forall i | 0 <= i < |s.invocations| ensures Matches(Exact, s.spec, pat, s.invocations[i]) ==> Matches(Partial, s.spec, pat, s.invocations[i]) {
      ExactImpliesPartial(s.spec, pat, s.invocations[i]);
    }
    CountMonotone(s.invocations,
      (inv: Invocation<V>) => Matches(Exact, s.spec, pat, inv),
      (inv: Invocation<V>) => Matches(Partial, s.spec, pat, inv));
  }

  /** Any assertion that passes on exact matches passes on partial matches too. */
  lemma AssertAnyExactImpliesPartial<V(!new)>(s: Spy<V>, pat: Pattern<V>)
    ensures AssertAny(s, Exact, pat).Passed? ==> AssertAny(s, Partial, pat).Passed?
  {
    ExactCountBelowPartial(s, pat);
  }

  /**
   A returning call adds one to the count of matching records exactly when
   its own record matches; a raising call changes no count.
   */
  lemma MatchCountAfterCall<V, R, E>(s: Spy<V>, target: (seq<V>, map<string, V>) -> Outcome<R, E>,
                                      args: seq<V>, kwargs: map<string, V>, mode: Mode, pat: Pattern<V>)
    ensures MatchCount(Call(s, target, args, kwargs).0, mode, pat) ==
      MatchCount(s, mode, pat) +
      (if target(args, kwargs).Returned? && Matches(mode, s.spec, pat, Recorded(s, args, kwargs)) then 1 else 0)
  {
    if target(args, kwargs).Returned? {
      CountSnoc(s.invocations, Recorded(s, args, kwargs), (inv: Invocation<V>) => Matches(mode, s.spec, pat, inv));
    }
  }

  /** After clearing, nothing matches: `never` holds and `at_least_once` fails. */
  lemma ClearedMatchesNothing<V(!new)>(s: Spy<V>, mode: Mode, pat: Pattern<V>)
    ensures CheckQuantified(Clear(s).0, mode, Never(), pat)
    ensures AssertAny(Clear(s).0, mode, pat).AssertionError?
  {
  }

  /** One call to the target: its positional and keyword arguments. */
  datatype CallArgs<V> = CallArgs(args: seq<V>, kwargs: map<string, V>)

  /** The spy after a sequence of calls to the same target, in order. */
  function CallAll<V, R, E>(s: Spy<V>, target: (seq<V>, map<string, V>) -> Outcome<R, E>, calls: seq<CallArgs<V>>): (t: Spy<V>)
    ensures SameSettings(s, t)
    decreases |calls|
  {
    if |calls| == 0 then s
    else
      var last := calls[|calls| - 1];
      Call(CallAll(s, target, calls[..|calls| - 1]), target, last.args, last.kwargs).0
  }

  /**
   After a sequence of calls the old history is kept as a prefix, and the
   history grew by exactly the number of calls whose target returned.
   */
  lemma {:induction false} CallAllHistory<V, R, E>(s: Spy<V>, target: (seq<V>, map<string, V>) -> Outcome<R, E>, calls: seq<CallArgs<V>>)
    ensures var t := CallAll(s, target, calls);
      && |t.invocations| == |s.invocations| + Count(calls, (c: CallArgs<V>) => target(c.args, c.kwargs).Returned?)
      && t.invocations[..|s.invocations|] == s.invocations
    decreases |calls|
  {
    if |calls| > 0 {
      var init := calls[..|calls| - 1];
      CallAllHistory(s, target, init);
      var u := CallAll(s, target, init);
      assert u.invocations[..|s.invocations|] == s.invocations;
      var last := calls[|calls| - 1];
      var t := Call(u, target, last.args, last.kwargs).0;
      if target(last.args, last.kwargs).Returned? {
        assert t.invocations[..|s.invocations|] == t.invocations[..|u.invocations|][..|s.invocations|];
      }
    }
  }

  /**
   For a one-parameter signature `def f(name)` with no default, a single
   wildcard exactly matches a call that passed that one argument.
   */
  lemma WildcardMatchesSingleArgument<V>(name: string, v: V)
    ensures ExactMatch(ArgSpec([name], None, None, []), Pattern([Anything], map[]), Invocation([v], map[]))
  {
    var spec: ArgSpec<V> := ArgSpec([name], None, None, []);
    var pat: Pattern<V> := Pattern([Anything], map[]);
    var inv := Invocation([v], map[]);
    assert DefaultSeed(spec) == map[];
    ExactMatchIsReference(spec, pat, inv);
    assert ExactReference(spec, pat, inv);
  }

  /**
   A method spy on `def wat(self, wat)` called as `t.wat(1)`: the receiver is
   dropped from the record, and a single wildcard matches it exactly once.
   */
  lemma MethodSpyMatchesOnce(receiver: int)
    ensures var s := NewSpy(ArgSpec(["self", "wat"], None, None, []), true, false, true);
      var (t, outcome) := Call(s, (args: seq<int>, kwargs: map<string, int>) => Outcome<int, int>.Returned(1), [receiver, 1], map[]);
      && outcome == Returned(1)
      && t.invocations == [Invocation([1], map[])]
      && AssertOne(t, Exact, Pattern([Anything], map[])).Passed?
  {
    var s := NewSpy(ArgSpec(["self", "wat"], None, None, []), true, false, true);
    var (t, outcome) := Call(s, (args: seq<int>, kwargs: map<string, int>) => Outcome<int, int>.Returned(1), [receiver, 1], map[]);
    assert Drop([receiver, 1], 1) == [1];
    assert t.spec == ArgSpec(["wat"], None, None, []);
    WildcardMatchesSingleArgument("wat", 1);
  }

  /**
   For a one-parameter signature `def f(name)` with no default, a keyword
   predicate for `name` matches a call that passed the argument positionally.
   */
  lemma KeywordPatternMatchesPositional<V(!new)>(name: string, v: V)
    ensures ExactMatch(ArgSpec([name], None, None, []), Pattern([], map[name := EqualTo(v)]), Invocation([v], map[]))
  {
    var spec: ArgSpec<V> := ArgSpec([name], None, None, []);
    var pat: Pattern<V> := Pattern([], map[name := EqualTo(v)]);
    var inv := Invocation([v], map[]);
    assert DefaultSeed(spec) == map[];
    ExactMatchIsReference(spec, pat, inv);
    assert ExactReference(spec, pat, inv);
  }

  /**
   For a one-parameter signature `def f(name)` with no default, a positional
   `equal_to(w)` rejects a call that passed a different value.
   */
  lemma EqualToRejectsOther<V(!new)>(name: string, v: V, w: V)
    requires v != w
    ensures !ExactMatch(ArgSpec([name], None, None, []), Pattern([EqualTo(w)], map[]), Invocation([v], map[]))
  {
    var spec: ArgSpec<V> := ArgSpec([name], None, None, []);
    var pat: Pattern<V> := Pattern([EqualTo(w)], map[]);
    var inv := Invocation([v], map[]);
    assert DefaultSeed(spec) == map[];
    ExactMatchIsReference(spec, pat, inv);
    assert CallBindings(spec, inv)[0].value == v;
  }

  /** With a single record, the count of matches is one when that record matches and zero otherwise. */
  lemma SingleRecordCount<V>(s: Spy<V>, mode: Mode, pat: Pattern<V>)
    requires |s.invocations| == 1
    ensures MatchCount(s, mode, pat) == if Matches(mode, s.spec, pat, s.invocations[0]) then 1 else 0
  {
    assert s.invocations == [] + [s.invocations[0]];
    CountSnoc([], s.invocations[0], (inv: Invocation<V>) => Matches(mode, s.spec, pat, inv));
  }

  /** The spy of `def hello(world)` after the call `hello(1)` returned. */
  function HelloAfterCall(result: bool): (t: Spy<int>)
    ensures t.spec == ArgSpec(["world"], None, None, [])
    ensures t.invocations == [Invocation([1], map[])]
  {
    var s := NewSpy(ArgSpec(["world"], None, None, []), false, false, true);
    Call(s, (args: seq<int>, kwargs: map<string, int>) => Outcome<bool, int>.Returned(result), [1], map[]).0
  }

  /**
   A function spy on `def hello(world)` called as `hello(1)`: one exact match
   for a wildcard, one for `world=equal_to(1)`, none for `equal_to(2)`.
   */
  lemma FunctionSpyScenario(result: bool)
    ensures CheckQuantified(HelloAfterCall(result), Exact, Times(1), Pattern([Anything], map[]))
    ensures CheckQuantified(HelloAfterCall(result), Exact, Times(1), Pattern([], map["world" := EqualTo(1)]))
    ensures CheckQuantified(HelloAfterCall(result), Exact, Never(), Pattern([EqualTo(2)], map[]))
  {
    var t := HelloAfterCall(result);
    WildcardMatchesSingleArgument("world", 1);
    SingleRecordCount(t, Exact, Pattern([Anything], map[]));
    KeywordPatternMatchesPositional("world", 1);
    SingleRecordCount(t, Exact, Pattern([], map["world" := EqualTo(1)]));
    EqualToRejectsOther("world", 1, 2);
    SingleRecordCount(t, Exact, Pattern([EqualTo(2)], map[]));
  }
}

=== FILE: text.dfy ===
/**
 The few string operations the step printer applies to a step name and its
 indentation: replacing one character, capitalising, stripping surrounding
 whitespace and repeating a string. Characters are treated as ASCII.
 */
module Text {

  /** The characters `str.strip()` removes: space, tab, newline, carriage return, vertical tab, form feed. */
  predicate IsSpace(c: char) {
    c == ' ' || c == '\t' || c == '\n' || c == '\r' || c == '\U{0B}' || c == '\U{0C}'
  }

  predicate IsLower(c: char) { 'a' <= c <= 'z' }
  predicate IsUpper(c: char) { 'A' <= c <= 'Z' }

  function ToUpper(c: char): (d: char)
    ensures IsLower(c) ==> IsUpper(d) && d as int == c as int - 32
    ensures !IsLower(c) ==> d == c
  {
    if IsLower(c) then (c as int - 32) as char else c
  }

  function ToLower(c: char): (d: char)
    ensures IsUpper(c) ==> IsLower(d) && d as int == c as int + 32
    ensures !IsUpper(c) ==> d == c
  {
    if IsUpper(c) then (c as int + 32) as char else c
  }

  /** Every occurrence of `from` replaced by `to`, everything else kept in place. */
  function Replace(s: string, from: char, to: char): (r: string)
    ensures |r| == |s|
    ensures forall i :: 0 <= i < |s| ==> r[i] == (if s[i] == from then to else s[i])
  {
    seq(|s|, i requires 0 <= i < |s| => if s[i] == from then to else s[i])
  }

  /** `str.capitalize()`: the first character upper-cased, the rest lower-cased. */
  function Capitalize(s: string): (r: string)
    ensures |r| == |s|
    ensures |s| > 0 ==> r[0] == ToUpper(s[0])
    ensures forall i :: 0 < i < |s| ==> r[i] == ToLower(s[i])
  {
    seq(|s|, i requires 0 <= i < |s| => if i == 0 then ToUpper(s[0]) else ToLower(s[i]))
  }

  /** Capitalising twice is capitalising once. */
  lemma CapitalizeIdempotent(s: string)
    ensures Capitalize(Capitalize(s)) == Capitalize(s)
  {
  }

  /** How many whitespace characters `s` starts with. */
  function LeadingSpaces(s: string): (n: nat)
    ensures n <= |s|
    ensures forall k :: 0 <= k < n ==> IsSpace(s[k])
    ensures n < |s| ==> !IsSpace(s[n])
  {
    if |s| == 0 || !IsSpace(s[0]) then 0 else 1 + LeadingSpaces(s[1..])
  }

  /** How many whitespace characters `s` ends with. */
  function TrailingSpaces(s: string): (n: nat)
    ensures n <= |s|
    ensures forall k :: |s| - n <= k < |s| ==> IsSpace(s[k])
    ensures n < |s| ==> !IsSpace(s[|s| - n - 1])
  {
    if |s| == 0 || !IsSpace(s[|s| - 1]) then 0 else 1 + TrailingSpaces(s[..|s| - 1])
  }

  /**
   `str.strip()`: the longest slice of `s` that neither starts nor ends with
   whitespace, everything cut off being whitespace.
   */
  function Strip(s: string): (r: string)
    ensures exists i, j ::
      && 0 <= i <= j <= |s| && r == s[i..j]
      && (forall k :: 0 <= k < i || j <= k < |s| ==> IsSpace(s[k]))
    ensures |r| > 0 ==> !IsSpace(r[0]) && !IsSpace(r[|r| - 1])
  {
    var i := LeadingSpaces(s);
    var t := s[i..];
    var j := i + |t| - TrailingSpaces(t);
    assert t[..|t| - TrailingSpaces(t)] == s[i..j];
    s[i..j]
  }

  /** A string that neither starts nor ends with whitespace is its own strip. */
  lemma StripTrimmed(s: string)
    requires |s| > 0 ==> !IsSpace(s[0]) && !IsSpace(s[|s| - 1])
    ensures Strip(s) == s
  {
    assert LeadingSpaces(s) == 0;
    assert TrailingSpaces(s) == 0;
    assert s[0..|s|] == s;
  }

  /** Stripping twice is stripping once. */
  lemma StripIdempotent(s: string)
    ensures Strip(Strip(s)) == Strip(s)
  {
    StripTrimmed(Strip(s));
  }

  /** `s * n`: `n` copies of `s`, and the empty string when `n` is not positive. */
  function Repeat(s: string, n: int): (r: string)
    ensures |r| == if n <= 0 then 0 else n * |s|
    ensures forall i :: 0 <= i < |r| ==> r[i] in s
    ensures n > 0 ==> r[..|s|] == s
    decreases n
  {
    if n <= 0 then "" else
      var rest := Repeat(s, n - 1);
      assert |s + rest| == n * |s| by {
        assert (n - 1) * |s| + |s| == n * |s|;
      }
      s + rest
  }
}

=== FILE: wrappers.dfy ===
/** Option and Result datatypes shared by the rest of the model. */
module Wrappers {

  /** A value that may be absent (Python's `None` versus a value). */
  datatype Option<+T> = None | Some(value: T)

  /** The outcome of an operation that either produces a value or raises. */
  datatype Result<+T, +E> = Ok(value: T) | Err(error: E)
}
